=== FILE: README.md ===
# cephsum in Dafny

cephsum computes, stores and checks Adler-32 checksums of objects in a Ceph
RADOS pool on behalf of XRootD. This project is a Dafny model of its
sequential core. Where a part has an independent definition (RFC 1950, the
base-16 value of a digit string) or an inverse, it is proved against it; the
command's dispatch and exit-code logic is stated case by case:

- **Adler32**: the streaming checksum. Its update is stated by the
  definition in section 2.2 of RFC 1950, and the state is rendered as eight
  lower-case big-endian hex digits.
- **Checksum / LegacyAdler32**: the accumulator. It folds the update over
  a finite sequence of byte buffers and keeps the byte and buffer counters.
  The thin `adler32` wrapper class forwards to it.
- **Actions**: the reconciliation policies `get_from_metatdata`,
  `get_from_file`, `get_checksum`, `inget` and `verify`.
  - They act on an explicit store. The store maps (object, attribute) to the
    stored record, and maps each object to the record a full read of its
    content yields.
  - Each policy returns its result and the log of store operations it
    issued. Every metadata write carries its `force_overwrite` flag.
- **Cli**: the pure parts of the `cephsum` command.
  - Parsing `-C alg[:value]`, converting `--readsize`, and action dispatch.
  - Mapping (action, result hex, source checksum) to the process exit
    code (0, 101, 102; the 103 it assigns is never the final code).
  - Exceptions and `sys.exit` become returned values.
- **RmLocks**: the lock-cleanup loop.
  - Each listed object is classified as not found, without lock
    attribute, with an inactive lock, or with a held lock.
  - The lock bytes are rendered with Python `hex()` per byte and compared
    with the fixed rendering of an unheld lock.
  - The loop counts each class, and removes held locks unless it is a dry
    run.
- **Text / Wrappers**: the Python string operations used (`strip`,
  `lower`, `split`, `isspace`), hex digits, and `Option`/`Result`.

## Model

| member | source | states |
|---|---|---|
| Adler32.Step | cephsum/adler32.py:35-38 | one byte of the update keeps both 16-bit halves of the state below 65521 |
| Adler32.Update | cephsum/adler32.py:35-38 | every state reached from a valid state by `zlib.adler32(buf, prev)` is valid: both halves < 65521, so the state is < 2^32 |
| Adler32.UpdateIsRfc1950 | cephsum/adler32.py:35-38 | the update started from 1 equals RFC 1950's B*65536 + A over the whole input |
| Adler32.UpdateClosedForm | cephsum/adler32.py:35-38 | continuing from any valid state adds the byte sum to s1 and the running sums started at s1 to s2, modulo 65521 |
| Adler32.UpdateHalves | cephsum/adler32.py:35-38 | half by half: the low half advances by the byte sum and the high half by the running sums started at the low half, both modulo 65521 |
| Adler32.UpdateConcat | cephsum/adler32.py:35-38 | chunking independence: updating over `a`, then over `b`, equals one update over `a + b` |
| Adler32.BytesToHex | cephsum/adler32.py:19 | `'{:02x}'` per byte: two lower-case hex digits per byte |
| Adler32.BytesToHexValue | cephsum/adler32.py:19 | the hex text of the bytes has their big-endian value |
| Adler32.PackValue | cephsum/adler32.py:19 | `struct.pack('>I', v)` gives four bytes whose big-endian value is `v` |
| Adler32.IntToHex | cephsum/adler32.py:15-19 | defined exactly on [0, 2^32); the result is 8 lower-case hex digits with base-16 value `v` |
| Adler32.IntToHexDigits | cephsum/adler32.py:19 | the result is the four packed bytes, most significant first, two digits each |
| Adler32.HexToIntSigned | cephsum/adler32.py:21-24 | `int(s, 16)` skips the whitespace `int()` skips around the numeral, accepts an optional `+`/`-` and `0x`/`0X` before a run of hex digits, and yields the signed base-16 value |
| Adler32.HexToIntNoDigits | cephsum/adler32.py:21-24 | a string with no hex digit at all raises ValueError (None) |
| Adler32.HexToIntSeparator | cephsum/adler32.py:21-24 | U+001C is removed by `strip()` but not skipped by `int()`, so `int("\x1c1f", 16)` raises ValueError |
| Adler32.HexToIntOfDigits | cephsum/adler32.py:21-25 | `int(s, 16)` of a non-empty run of hex digits of either case is its base-16 value |
| Adler32.IntToHexRoundTrip | cephsum/adler32.py:15-25 | `hextoint(inttohex(v)) == v` for every 0 <= v < 2^32 |
| Adler32.HexToIntRoundTrip | cephsum/adler32.py:15-25 | `inttohex(hextoint(s)) == s` for every 8-digit lower-case hex string |
| Checksum.NewAdler32 | cephsum/adler32.py:10-13 | a fresh accumulator has both counters 0, state 1 (valid) and no output value |
| Checksum.ConsumeAll | cephsum/checksum.py:72-76 | the loop's state is one update over the concatenated buffers; bytes grow by the total length; buffers grow by their count, empty ones included; the rest is unchanged |
| Checksum.CalcChecksum | cephsum/checksum.py:71-82 | as ConsumeAll, and the returned string is `to_output` of the final state and is also stored as `value` |
| Checksum.CalcChecksumEmpty | cephsum/checksum.py:71-82 | with no buffers only `value` changes, to the hex of the current state |
| Checksum.CalcChecksumSequential | cephsum/checksum.py:72-82 | a call on `a` then on `b` leaves the same accumulator and returns the same string as one call on `a + b` |
| Checksum.FreshAccumulatorIdentity | tests/tests.py:30-36 | a fresh accumulator over no buffers returns `"00000001"` with zero counters |
| Checksum.Vector1234 | tests/tests.py:38-44 | `[b'1234']` yields `"01f800cb"` |
| LegacyAdler32.New | cephsum/adler32.py:43-44 | the wrapper holds a fresh accumulator under the given name: state 1, both counters 0, no output value |
| LegacyAdler32.Delegation | cephsum/adler32.py:46-55 | the wrapper's conversions and `calc_checksum` return what `Adler32`'s return, and keep the held accumulator's new state |
| LegacyAdler32.VectorIntToHex | tests/tests.py:8-16 | 999476992 renders as `"3b92cf00"` |
| LegacyAdler32.VectorHexToInt | tests/tests.py:19-27 | `"3b92cf00"` reads as 999476992 |
| LegacyAdler32.VectorEmpty | tests/tests.py:30-36 | the wrapper over no buffers returns `"00000001"` |
| LegacyAdler32.Vector1234 | tests/tests.py:38-44 | the wrapper over `[b'1234']` returns `"01f800cb"` |
| Actions.GetFromMetadata | cephsum/actions.py:16-21 | one metadata read and no write; a result exactly when the attribute holds a record, and then that record |
| Actions.GetFromFile | cephsum/actions.py:23-28 | one content read and no write; a result exactly when the content yields one, and then that record |
| Actions.GetChecksum | cephsum/actions.py:30-40 | no write; the stored record when present, without reading content; otherwise the content record, read from the content |
| Actions.Inget | cephsum/actions.py:44-73 | at most one write; a big-endian stored record with rewrite on is written back forced and returned; any other stored record is returned with no write; with no record, no content checksum gives None and no write, else the content record is written unforced and returned; content is read exactly when no record is stored |
| Actions.Verify | cephsum/actions.py:76-96 | no write; content is read exactly when a record is stored or `force_fileread` is set; a result exactly when a record is stored and its raw checksum bytes equal the content's, and then it is the stored record |
| Actions.IngetAgreesWithGetChecksum | cephsum/actions.py:30-73 | `inget` and `get_checksum` return the same record whenever the latter does not crash |
| Actions.VerifyWithoutRecord | cephsum/actions.py:85-96 | with no stored record `verify` returns None, forced read or not |
| Actions.IngetNeverReplaces | cephsum/actions.py:51-68 | every write of `inget` targets the given object and attribute; a forced write re-writes the record just read; an unforced write happens only when none was stored |
| Cli.ParseTypeOption | cephsum/cephsum.py:126-141 | accepted exactly when the lower-cased first field is `adler32` or `auto` and, for `check`, a second field exists; any other name raises NotImplementedError with that name; the source is the lower-cased second field if present |
| Cli.ParseTypeOptionSource | cephsum/cephsum.py:139 | for `name:value:extra...`, the source is `value` lower-cased and the extra fields are ignored |
| Cli.ParseTypeOptionNoSource | cephsum/cephsum.py:139-141 | a colon-free option has no source, so `check` raises ValueError and other actions proceed |
| Cli.Dispatch | cephsum/cephsum.py:156-168 | `inget` and `check` select `inget`, `verify` selects `verify`, `get` selects `get_checksum`, `metaonly` selects `get_from_metatdata`, `fileonly` selects `get_from_file`; any other action raises NotImplementedError |
| Cli.RunAction | cephsum/cephsum.py:156-165 | per action: `inget` returns the stored record if any, re-writing it forced when it is big-endian and writing nothing otherwise; with no stored record it inserts the content record unforced and returns it, or returns None without writing; `get` returns the stored record, else the content record; `verify` returns the stored record exactly when its raw bytes equal the content's, reading content exactly when a record is stored; `metaonly` and `fileonly` return the metadata or content lookup with one read; only `inget` writes |
| Cli.CksumHex | cephsum/cephsum.py:175 | the printed and compared hex text has two lower-case digits per checksum byte and the bytes' big-endian value |
| Cli.ReadsizeBytes | cephsum/cephsum.py:116 | the read size in bytes is an exact multiple of 1 MiB whose quotient is the argument |
| Cli.ExitCode | cephsum/cephsum.py:175-235 | no result exits 102; 103 is never the final code; with a result the code is 101 iff a source is given and differs from the result's hex (or `check` has none), else 0 |
| Cli.Cephsum | cephsum/cephsum.py:126-235 | option errors and unknown actions raise; otherwise the command exits with the store operations of the selected policy, the exit code that ExitCode gives for that policy's result, and the result's hex plus a newline on stdout when there is a result; the code is never 103, and something is printed exactly when the code is not 102 |
| Cli.CheckRunsInget | cephsum/cephsum.py:156-184 | `check` issues the same store operations and prints the same text as `inget`, and exits 0 exactly when `inget`'s record has the source's hex |
| Cli.NoResultExits102 | cephsum/cephsum.py:224-235 | when the policy yields nothing, every action prints nothing and exits 102 |
| Cli.InsertsDespiteMismatch | cephsum/cephsum.py:156-198 | with no stored record, `inget` and `check` with a source that differs from the content's hex insert the content record unforced and exit 101 |
| Cli.PrintIsCompared | cephsum/cephsum.py:138-139 | `-C adler32:print` is taken as the source value `print`, so every action that reconciles a record exits 101 |
| Cli.IngetAsDocumented | cephsum/cephsum.py:76 | with no stored record the content record is returned and inserted unforced only when no source is given or the source equals its hex; a stored record is handled exactly as `inget` handles it |
| Cli.RunDocumented | cephsum/cephsum.py:76-81 | under the help text's reading, `inget` runs IngetAsDocumented, every other policy is the one RunAction runs, and no unforced write inserts a record whose hex differs from the source |
| Cli.CephsumAsDocumented | cephsum/cephsum.py:50-52 | the command as its help text describes it: the same option and action errors; otherwise it exits with RunDocumented's events, ExitCode's code for RunDocumented's result under the documented source, and that result's hex on stdout; no unforced insert against a differing source, never 103, printing exactly when not 102, and `print` never exits 101 outside `check` |
| Cli.DocumentedNoInsertOnMismatch | cephsum/cephsum.py:76-81 | under the help text's reading, the mismatching source of InsertsDespiteMismatch exits 101 with no write |
| Cli.DocumentedAgreesWithoutSource | cephsum/cephsum.py:76-81 | without a source the documented command and the code's command are the same |
| Text.Split | cephsum/cephsum.py:126 | `str.split(':')` yields at least one field, no field holds the separator, and joining the fields gives back the input |
| Text.SplitJoin | cephsum/cephsum.py:126 | splitting a join of separator-free fields gives back the fields |
| Text.TrimStartSpec | cephsum/rmlocks.py:26 | dropping leading blanks (those of `strip()` or those of `int()`) leaves a suffix that is empty or starts with a non-blank, and everything dropped is blank |
| Text.TrimEndSpec | cephsum/rmlocks.py:26 | dropping trailing blanks (those of `strip()` or those of `int()`) leaves a prefix that is empty or ends with a non-blank, and everything dropped is blank |
| Text.StripSpec | cephsum/rmlocks.py:26 | `strip()` leaves an infix with only whitespace outside it, and neither end of the infix is whitespace |
| RmLocks.HexDigits | cephsum/rmlocks.py:38 | `hex()` digits are lower case, never empty, have base-16 value `n`, have no leading zero, and are a single digit exactly below 16 |
| RmLocks.LockHexInjective | cephsum/rmlocks.py:38 | different lock bytes never render to the same `hex()` concatenation, despite the missing padding |
| RmLocks.EmptyLockRendering | cephsum/rmlocks.py:9 | the unheld-lock constant is the rendering of the 18 bytes `EMPTY_LOCK_BYTES` |
| RmLocks.ClassifySpec | cephsum/rmlocks.py:27-42 | a line is not found exactly when `stat` fails, without lock attribute exactly when found with no attribute, inactive exactly when the attribute's bytes are `EMPTY_LOCK_BYTES`, and held otherwise |
| RmLocks.InactiveIffEmptyBytes | cephsum/rmlocks.py:38-42 | a lock counts as inactive exactly when its bytes are `EMPTY_LOCK_BYTES` |
| RmLocks.ClassesPartition | cephsum/rmlocks.py:25-45 | every line lands in exactly one of the four classes, so their counts sum to the number of lines |
| RmLocks.RemovedAtMostLocked | cephsum/rmlocks.py:44-53 | successful removals never exceed held locks, and one removal is attempted per held lock |
| RmLocks.Tally | cephsum/rmlocks.py:29-53 | one line bumps exactly the counter of its class; outside a dry run a held lock's path is appended to the removal attempts and bumps ok or error by the removal's outcome; in a dry run nothing is attempted |
| RmLocks.RunCounts | cephsum/rmlocks.py:25-53 | after any number of lines the counters are the per-class counts; a dry run attempts nothing; otherwise the attempts are the held-lock paths in order and ok + error equals the held count |
| RmLocks.RemoveLocksSpec | cephsum/rmlocks.py:25-53 | the loop over all lines meets RunCounts's statement, and its four class counters add up to the number of lines |
| RmLocks.RemoveLocks | cephsum/rmlocks.py:24-53 | the counters are the per-class counts and sum to the line count; a dry run attempts nothing and leaves both removal counters 0; otherwise removal is attempted exactly on the stripped paths of held locks, in order, and ok + error equals the held count |

## Findings

| source | as written | input that shows it | evidently intended | confidence | as-written member | corrected member |
|---|---|---|---|---|---|---|
| cephsum/cephsum.py:76-81 against cephsum/cephsum.py:156-157 and cephsum/actions.py:66-68 | `inget` and `check` call `actions.inget`, which inserts the content record before the source is compared | `-C adler32:deadbeef --action check` on an object without the attribute whose content checksum is not `deadbeef` | the help text: a non-matching source adds no metadata | not executed; either the help text or the code may be the one to change | Cli.InsertsDespiteMismatch | Cli.CephsumAsDocumented |
| cephsum/cephsum.py:50-52 against cephsum/cephsum.py:138-139 | the second `-C` field is always the source checksum, `print` included | `-C adler32:print --action get` on any object with a checksum | the help text: `print` prints the checksum without verifying it | not executed; the TODO at cephsum/cephsum.py:138 marks it as unfinished | Cli.PrintIsCompared | Cli.CephsumAsDocumented |

`Cli.Cephsum` stays the model of the command as the code runs it. `Cli.CephsumAsDocumented` is the variant that meets the help text, and Cli.DocumentedAgreesWithoutSource shows the two agree whenever no source is given.

## Left out

- `cephsum/esearch.py` and the `--es` reporting: this is network I/O to Elasticsearch.
- The record codec (`XrdCks`: `from_binary`, `to_binary`, `get_cksum_as_binary`), `lfn2pfn` and `cephtools`: XrdCks, lfn2pfn and cephtools are not part of this model. Their roles are handled this way:
  - A record is a datatype with a name, raw checksum bytes and a read format.
  - A write carries the record itself in place of `to_binary()`.
  - The two `cephtools` lookups become reads of the explicit store.
- `get_cksum_as_hex` is taken to be the lower-case hex of the raw checksum bytes. The pair in tests/tests.py:47-52 agrees with this, but the codec that implements it is not part of this model.
- `convert_path` and the LFN-to-PFN mapping: the command's model receives the object path already resolved.
- Rados cluster connect/shutdown, `open_ioctx`, argparse, logging, the timing, the stdout flush and `sys.exit`: the model returns the exit code, the printed text and the store operations as values.
- The `--mt`/`--workers` keyword arguments passed at cephsum/cephsum.py:157-165: the policies in cephsum/actions.py do not accept them, so that call signature mismatch is not modelled.
- The atomicity of the exclusive create behind `force_overwrite=False`: it lives in `cephtools`. Only the flag is modelled.
- Actions.GetChecksum: the crash when neither metadata nor content yields a record is excluded by its precondition, not modelled.
- Actions.Verify: the crash when a stored record exists but the content yields no record is excluded by its precondition, not modelled.
- The idempotence of `inget`: whether a second call finds the record just written depends on the codec's round trip, which is not part of this model.
- The content checksum is assumed not to depend on the read size: the store yields one content record per object, and the read size appears only in the recorded read events. `cks_from_file` lives in `cephtools`, which is not part of this model. The chunking independence of the accumulator (Adler32.UpdateConcat, Checksum.CalcChecksumSequential) is what makes the assumption plausible, but it does not prove it.
- Adler32.Update: zlib's behaviour on start values whose halves are not reduced modulo 65521 is not modelled. Such states are unreachable from 1.
- Adler32.HexToInt: the whitespace `int()` skips is modelled (every `isspace` character except U+001C..U+001F), but the non-ASCII Unicode decimal digits that Python's `int(s, 16)` also accepts are not.
- Text.Lower: only ASCII letters are lowered, where Python's `str.lower` lowers all of Unicode.
- RmLocks.RemoveLocks: a `stat` failure other than ObjectNotFound propagates out of the loop in the tool. The model's observation only records found or not found.
- The commented-out code in cephsum/adler32.py, cephsum/actions.py and cephsum/cephsum.py.
- The abstract `Checksum` base class: only its Adler-32 instantiation is modelled.

=== FILE: actions.dfy ===
/**
 The reconciliation policies of the checksum tool: reading a checksum from
 an object's metadata attribute or from its content, and deciding when to
 write a record back. The store is explicit state and each operation
 returns its result together with the log of store operations it issued.
 */
module Actions {
  import opened Wrappers
  import opened Text

  /** Which byte order a stored record was decoded from (`read_format`). */
  datatype ByteOrder = Big | Little

  /**
   A checksum record (`XrdCks`) as the policies see it: the algorithm name,
   the raw checksum bytes and the byte order it was read in. Its binary
   encoding (`to_binary`) is kept symbolic: a write carries the record.
   */
  datatype Record = Record(name: string, cksum: seq<byte>, readFormat: ByteOrder)

  datatype MetaKey = MetaKey(path: string, xattr: string)

  /**
   The store as the two collaborators observe it: the decodable record held
   in each (object, attribute) slot, and for each object the record a full
   read of its content yields (absent when no checksum is possible).
   */
  datatype Store = Store(meta: map<MetaKey, Record>, content: map<string, Record>)

  /** One store operation issued by a policy. */
  datatype Event =
    | ReadMeta(path: string, xattr: string)
    | ReadFile(path: string, readsize: int)
    | WriteMeta(path: string, xattr: string, payload: Record, forceOverwrite: bool)

  /** What a policy returns, and the operations it issued, in order. */
  datatype Outcome = Outcome(result: Option<Record>, events: seq<Event>)

  /** The metadata writes among the events, in order. */
  function Writes(events: seq<Event>): (w: seq<Event>)
    ensures |w| <= |events|
    ensures forall k :: 0 <= k < |w| ==> w[k].WriteMeta? && w[k] in events
    ensures (forall k :: 0 <= k < |events| ==> !events[k].WriteMeta?) ==> w == []
  {
    if |events| == 0 then []
    else
      var rest := Writes(events[1..]);
      if events[0].WriteMeta? then [events[0]] + rest else rest
  }

  /** The writes are exactly the write events, each as often as it was issued, and nothing else. */
  lemma {:induction false} WritesContents(events: seq<Event>)
    ensures forall e: Event :: e.WriteMeta? ==> multiset(Writes(events))[e] == multiset(events)[e]
    ensures forall e: Event :: !e.WriteMeta? ==> e !in Writes(events)
  {
    if |events| > 0 {
      WritesContents(events[1..]);
      assert events == [events[0]] + events[1..];
    }
  }

  /** Filtering distributes over concatenation, so the writes keep the order of the events. */
  lemma {:induction false} WritesAppend(a: seq<Event>, b: seq<Event>)
    ensures Writes(a + b) == Writes(a) + Writes(b)
  {
    if |a| > 0 {
      WritesAppend(a[1..], b);
      assert (a + b)[1..] == a[1..] + b;
    } else {
      assert a + b == b;
    }
  }

  /** Whether the content of some object was read. */
  predicate ReadsFile(events: seq<Event>) {
    exists k :: 0 <= k < |events| && events[k].ReadFile?
  }

  /** `cephtools.cks_from_metadata`: the stored record, if the attribute holds one. */
  function MetaLookup(store: Store, path: string, xattr: string): Option<Record> {
    if MetaKey(path, xattr) in store.meta then Some(store.meta[MetaKey(path, xattr)]) else None
  }

  /** `cephtools.cks_from_file`: the record computed from the object's content, if possible. */
  function FileLookup(store: Store, path: string): Option<Record> {
    if path in store.content then Some(store.content[path]) else None
  }

  /** `get_from_metatdata`: the stored record or nothing; one metadata read, nothing else. */
  function GetFromMetadata(store: Store, path: string, xattr: string): (o: Outcome)
    ensures o.events == [ReadMeta(path, xattr)] && Writes(o.events) == []
    ensures o.result.Some? <==> MetaKey(path, xattr) in store.meta
    ensures o.result.Some? ==> o.result.value == store.meta[MetaKey(path, xattr)]
  {
    Outcome(MetaLookup(store, path, xattr), [ReadMeta(path, xattr)])
  }

  /** `get_from_file`: the content checksum or nothing; one content read, no write. */
  function GetFromFile(store: Store, path: string, readsize: int): (o: Outcome)
    ensures o.events == [ReadFile(path, readsize)] && Writes(o.events) == []
    ensures o.result.Some? <==> path in store.content
    ensures o.result.Some? ==> o.result.value == store.content[path]
  {
    Outcome(FileLookup(store, path), [ReadFile(path, readsize)])
  }

  /**
   `get_checksum` logs the result's hex, so it needs a result: the stored
   record exists or the content yields one.
   */
  predicate GetChecksumDefined(store: Store, path: string, xattr: string) {
    MetaKey(path, xattr) in store.meta || path in store.content
  }

  /**
   `get_checksum`: the stored record when there is one, otherwise the
   content checksum; the content is read only when the metadata is absent,
   and nothing is written.
   */
  function GetChecksum(store: Store, path: string, readsize: int, xattr: string): (o: Outcome)
    requires GetChecksumDefined(store, path, xattr)
    ensures Writes(o.events) == []
    ensures MetaKey(path, xattr) in store.meta ==>
              o.result == Some(store.meta[MetaKey(path, xattr)]) && !ReadsFile(o.events)
    ensures MetaKey(path, xattr) !in store.meta ==>
              o.result == Some(store.content[path]) && ReadsFile(o.events)
  {
    var m := GetFromMetadata(store, path, xattr);
    if m.result.None? then
      var f := GetFromFile(store, path, readsize);
      assert (m.events + f.events)[1].ReadFile?;
      WritesAppend(m.events, f.events);
      Outcome(f.result, m.events + f.events)
    else m
  }

  /**
   `inget`: return the stored record if there is one, normalising a
   big-endian record by rewriting it (forced) when `rewrite` is set;
   otherwise compute from content and insert it without overwriting.
   */
  function Inget(store: Store, path: string, readsize: int, xattr: string, rewrite: bool): (o: Outcome)
    ensures |Writes(o.events)| <= 1
    ensures var key := MetaKey(path, xattr);
            key in store.meta && store.meta[key].readFormat == Big && rewrite ==>
              && o.result == Some(store.meta[key])
              && Writes(o.events) == [WriteMeta(path, xattr, store.meta[key], true)]
    ensures var key := MetaKey(path, xattr);
            key in store.meta && !(store.meta[key].readFormat == Big && rewrite) ==>
              o.result == Some(store.meta[key]) && Writes(o.events) == []
    ensures MetaKey(path, xattr) !in store.meta && path !in store.content ==>
              o.result == None && Writes(o.events) == []
    ensures MetaKey(path, xattr) !in store.meta && path in store.content ==>
              && o.result == Some(store.content[path])
              && Writes(o.events) == [WriteMeta(path, xattr, store.content[path], false)]
    ensures ReadsFile(o.events) <==> MetaKey(path, xattr) !in store.meta
  {
    var m := GetFromMetadata(store, path, xattr);
    var normalise :=
      if rewrite && m.result.Some? && m.result.value.readFormat == Big
      then [WriteMeta(path, xattr, m.result.value, true)] else [];
    WritesAppend(m.events, normalise);
    var afterMeta := m.events + normalise;
    assert !ReadsFile(afterMeta) by {
      assert forall k :: 0 <= k < |afterMeta| ==> !afterMeta[k].ReadFile?;
    }
    if m.result.None? then
      var file := FileLookup(store, path);
      var afterRead := afterMeta + [ReadFile(path, readsize)];
      WritesAppend(afterMeta, [ReadFile(path, readsize)]);
      assert afterRead[|afterMeta|].ReadFile?;
      if file.None? then
        Outcome(None, afterRead)
      else
        var insert := [WriteMeta(path, xattr, file.value, false)];
        WritesAppend(afterRead, insert);
        assert (afterRead + insert)[|afterMeta|].ReadFile?;
        Outcome(file, afterRead + insert)
    else
      Outcome(m.result, afterMeta)
  }

  /**
   `verify` compares the stored checksum bytes with the content's, which it
   dereferences whenever a stored record exists: that content checksum must
   then be available.
   */
  predicate VerifyDefined(store: Store, path: string, xattr: string) {
    MetaKey(path, xattr) in store.meta ==> path in store.content
  }

  /**
   `verify`: the stored record exactly when it exists and its raw checksum
   bytes equal the content's; the content is read only when a record is
   stored or `forceFileread` is set; nothing is written.
   */
  function Verify(store: Store, path: string, readsize: int, xattr: string, forceFileread: bool): (o: Outcome)
    requires VerifyDefined(store, path, xattr)
    ensures Writes(o.events) == []
    ensures ReadsFile(o.events) <==> MetaKey(path, xattr) in store.meta || forceFileread
    ensures var key := MetaKey(path, xattr);
            o.result.Some? <==> key in store.meta && store.meta[key].cksum == store.content[path].cksum
    ensures o.result.Some? ==> o.result == Some(store.meta[MetaKey(path, xattr)])
  {
    var stored := MetaLookup(store, path, xattr);
    var readMeta := [ReadMeta(path, xattr)];
    var events :=
      if stored.None? && !forceFileread then readMeta
      else readMeta + [ReadFile(path, readsize)];
    var file := if stored.None? && !forceFileread then None else FileLookup(store, path);
    assert ReadsFile(events) <==> !(stored.None? && !forceFileread) by {
      if !(stored.None? && !forceFileread) {
        assert events[1].ReadFile?;
      }
    }
    var matching := if stored.None? then false else stored.value.cksum == file.value.cksum;
    Outcome(if matching then stored else None, events)
  }

  /**
   `inget` and `get_checksum` agree on the record returned whenever the
   latter is defined; `inget` differs only in the writes it issues.
   */
  lemma IngetAgreesWithGetChecksum(store: Store, path: string, readsize: int, xattr: string, rewrite: bool)
    requires GetChecksumDefined(store, path, xattr)
    ensures Inget(store, path, readsize, xattr, rewrite).result
         == GetChecksum(store, path, readsize, xattr).result
  {
  }

  /**
   Absence of a stored record is always a non-match for `verify`, whether
   or not the content yields a checksum, and whether or not it is read.
   */
  lemma VerifyWithoutRecord(store: Store, path: string, readsize: int, xattr: string, force: bool)
    requires MetaKey(path, xattr) !in store.meta
    ensures Verify(store, path, readsize, xattr, force).result == None
  {
  }

  /**
   A content checksum is only ever inserted with `force_overwrite=False`,
   and a forced write only ever re-writes the very record that was read:
   `inget` never replaces a stored checksum with a different one.
   */
  lemma IngetNeverReplaces(store: Store, path: string, readsize: int, xattr: string, rewrite: bool, k: nat)
    requires var w := Writes(Inget(store, path, readsize, xattr, rewrite).events); k < |w|
    ensures var w := Writes(Inget(store, path, readsize, xattr, rewrite).events)[k];
            && w.path == path && w.xattr == xattr
            && (w.forceOverwrite ==>
                  MetaKey(path, xattr) in store.meta && w.payload == store.meta[MetaKey(path, xattr)])
            && (!w.forceOverwrite ==> MetaKey(path, xattr) !in store.meta)
  {
  }
}

=== FILE: adler32.dfy ===
/**
 The Adler-32 algorithm as the `Adler32` checksum class uses it: the running
 state is one integer, updated buffer by buffer, and rendered as eight
 lower-case hexadecimal digits. The update is specified by the definition
 in section 2.2 of RFC 1950, not by zlib's implementation.
 */
module Adler32 {
  import opened Wrappers
  import opened Text

  /** The largest prime below 2^16, the modulus of both sums. */
  const BASE: int := 65521
  const HALF: int := 0x1_0000
  const WORD: int := 0x1_0000_0000

  /** The state a fresh `Adler32` starts from (s1 = 1, s2 = 0). */
  const INITIAL: int := 1

  /** s1, the running byte sum, is the low half of the state. */
  function Low(v: int): int { v % HALF }

  /** s2, the sum of the running sums, is the high half of the state. */
  function High(v: int): int { v / HALF }

  function Combine(s2: int, s1: int): int { s2 * HALF + s1 }

  /** A state reachable from `INITIAL`: both halves are reduced modulo `BASE`. */
  predicate ValidState(v: int) {
    0 <= v < WORD && Low(v) < BASE && High(v) < BASE
  }

  lemma CombineHalves(s2: int, s1: int)
    requires 0 <= s1 < BASE && 0 <= s2 < BASE
    ensures Low(Combine(s2, s1)) == s1 && High(Combine(s2, s1)) == s2
    ensures ValidState(Combine(s2, s1))
  {
  }

  lemma SplitHalves(v: int)
    requires ValidState(v)
    ensures Combine(High(v), Low(v)) == v
  {
  }

  /** One byte of RFC 1950's loop: s1 += byte, s2 += s1, both modulo 65521. */
  function Step(v: int, b: byte): (r: int)
    requires ValidState(v)
    ensures ValidState(r)
  {
    var s1 := (Low(v) + b) % BASE;
    var s2 := (High(v) + s1) % BASE;
    CombineHalves(s2, s1);
    Combine(s2, s1)
  }

  /** One byte folded into a state given by its halves. */
  lemma StepCombined(s2: int, s1: int, b: byte)
    requires 0 <= s1 < BASE && 0 <= s2 < BASE
    ensures ValidState(Combine(s2, s1))
    ensures Step(Combine(s2, s1), b) == Combine((s2 + (s1 + b) % BASE) % BASE, (s1 + b) % BASE)
  {
    CombineHalves(s2, s1);
  }

  /**
   `zlib.adler32(data, v)`: the Adler-32 of `data` continued from the state
   `v`, one byte at a time in order (a left fold of `Step`).
   */
  function Update(v: int, data: seq<byte>): (r: int)
    requires ValidState(v)
    ensures ValidState(r)
  {
    if |data| == 0 then v else Step(Update(v, data[..|data| - 1]), data[|data| - 1])
  }

  /** D1 + D2 + ... + Dn. */
  function Sum(data: seq<byte>): nat {
    if |data| == 0 then 0 else Sum(data[..|data| - 1]) + data[|data| - 1]
  }

  /** (a0 + D1) + (a0 + D1 + D2) + ... + (a0 + D1 + ... + Dn). */
  function SumOfRunningSums(a0: int, data: seq<byte>): int {
    if |data| == 0 then 0 else SumOfRunningSums(a0, data[..|data| - 1]) + a0 + Sum(data)
  }

  /**
   The Adler-32 checksum of `data` as section 2.2 of RFC 1950 defines it:
   A = 1 + D1 + ... + Dn, B = (1 + D1) + (1 + D1 + D2) + ... + (1 + D1 + ... + Dn),
   both modulo 65521, and the checksum is B * 65536 + A.
   */
  function Rfc1950Adler32(data: seq<byte>): int {
    Combine(SumOfRunningSums(1, data) % BASE, (1 + Sum(data)) % BASE)
  }

  lemma ModAddLeft(p: int, q: int)
    ensures (p % BASE + q) % BASE == (p + q) % BASE
  {
    var k := p / BASE;
    assert p == BASE * k + p % BASE;
    ModMultiple(k, p % BASE + q);
  }

  lemma ModMultiple(k: int, r: int)
    ensures (BASE * k + r) % BASE == r % BASE
  {
  }

  /** One byte's effect on each half of the state. */
  lemma StepHalves(u: int, x: byte)
    requires ValidState(u)
    ensures Low(Step(u, x)) == (Low(u) + x) % BASE
    ensures High(Step(u, x)) == (High(u) + (Low(u) + x) % BASE) % BASE
  {
    var s1 := (Low(u) + x) % BASE;
    CombineHalves((High(u) + s1) % BASE, s1);
  }

  /** The closed form of each half separately. */
  lemma {:induction false} UpdateHalves(v: int, data: seq<byte>)
    requires ValidState(v)
    ensures Low(Update(v, data)) == (Low(v) + Sum(data)) % BASE
    ensures High(Update(v, data)) == (High(v) + SumOfRunningSums(Low(v), data)) % BASE
    decreases |data|
  {
    if |data| == 0 {
      assert Update(v, data) == v && Sum(data) == 0 && SumOfRunningSums(Low(v), data) == 0;
      assert Low(v) % BASE == Low(v) && High(v) % BASE == High(v);
    } else {
      var prefix, x := data[..|data| - 1], data[|data| - 1];
      var u := Update(v, prefix);
      UpdateHalves(v, prefix);
      var w := Step(u, x);
      assert Update(v, data) == w;
      StepHalves(u, x);
      HalvesStep(Low(v), High(v), Sum(prefix), SumOfRunningSums(Low(v), prefix), x,
                 Sum(data), SumOfRunningSums(Low(v), data), Low(u), High(u), Low(w), High(w));
    }
  }

  /** One byte of the closed form, on plain integers. */
  lemma HalvesStep(lv: int, hv: int, sp: int, rp: int, x: int, sd: int, rd: int,
                   lu: int, hu: int, lw: int, hw: int)
    requires sd == sp + x && rd == rp + lv + sd
    requires lu == (lv + sp) % BASE && hu == (hv + rp) % BASE
    requires lw == (lu + x) % BASE && hw == (hu + (lu + x) % BASE) % BASE
    ensures lw == (lv + sd) % BASE && hw == (hv + rd) % BASE
  {
    ClosedFormStep(lv, hv, sp, rp, x);
  }

  /**
   The update in closed form: continuing from a state with halves (s2, s1)
   over `data` gives s1 + D1 + ... + Dn and s2 plus the running sums started
   at s1, each modulo 65521.
   */
  lemma UpdateClosedForm(v: int, data: seq<byte>)
    requires ValidState(v)
    ensures Update(v, data)
         == Combine((High(v) + SumOfRunningSums(Low(v), data)) % BASE, (Low(v) + Sum(data)) % BASE)
  {
    UpdateHalves(v, data);
    SplitHalves(Update(v, data));
  }

  /** The modular bookkeeping of one byte of the closed form. */
  lemma ClosedFormStep(low: int, high: int, sum: int, running: int, x: int)
    ensures var a := (low + sum) % BASE;
            var b := (high + running) % BASE;
            && (a + x) % BASE == (low + (sum + x)) % BASE
            && (b + (a + x) % BASE) % BASE == (high + (running + low + (sum + x))) % BASE
  {
    var a := (low + sum) % BASE;
    var b := (high + running) % BASE;
    ModAddLeft(low + sum, x);
    var s1 := (a + x) % BASE;
    ModAddLeft(high + running, s1);
    ModAddLeft(low + sum + x, high + running);
  }

  /** Starting from `INITIAL`, the update computes exactly RFC 1950's Adler-32. */
  lemma UpdateIsRfc1950(data: seq<byte>)
    ensures Update(INITIAL, data) == Rfc1950Adler32(data)
  {
    UpdateClosedForm(INITIAL, data);
  }

  /**
   Chunking independence of one update: continuing over `a` and then over
   `b` is the same as one pass over `a + b`.
   */
  lemma {:induction false} UpdateConcat(v: int, a: seq<byte>, b: seq<byte>)
    requires ValidState(v)
    ensures Update(Update(v, a), b) == Update(v, a + b)
    decreases |b|
  {
    if |b| == 0 {
      assert a + b == a;
    } else {
      var b' := b[..|b| - 1];
      assert (a + b)[..|a + b| - 1] == a + b';
      assert (a + b)[|a + b| - 1] == b[|b| - 1];
      UpdateConcat(v, a, b');
    }
  }

  /** `struct.pack('>I', v)`: the four bytes of `v`, most significant first. */
  function PackBigEndian32(v: int): seq<byte>
    requires 0 <= v < WORD
  {
    [v / 0x100 / 0x100 / 0x100, v / 0x100 / 0x100 % 0x100, v / 0x100 % 0x100, v % 0x100]
  }

  /** `'{:02x}'.format(b)`: two lower-case digits, zero padded. */
  function ByteToHex(b: byte): string {
    [HexChar(b / 16), HexChar(b % 16)]
  }

  /** The concatenation of `ByteToHex` over the bytes, in order. */
  function BytesToHex(bs: seq<byte>): (s: string)
    ensures |s| == 2 * |bs|
    ensures IsLowerHex(s)
  {
    if |bs| == 0 then ""
    else
      var last := bs[|bs| - 1];
      HexCharDigit(last / 16);
      HexCharDigit(last % 16);
      BytesToHex(bs[..|bs| - 1]) + ByteToHex(last)
  }

  /** The bytes read as a big-endian unsigned number. */
  function BigEndianValue(bs: seq<byte>): nat {
    if |bs| == 0 then 0 else BigEndianValue(bs[..|bs| - 1]) * 256 + bs[|bs| - 1]
  }

  lemma LowerHexAllHex(s: string)
    requires IsLowerHex(s)
    ensures forall i :: 0 <= i < |s| ==> IsHexDigit(s[i])
  {
  }

  /** Rendering bytes as hex keeps their big-endian value. */
  lemma {:induction false} BytesToHexValue(bs: seq<byte>)
    ensures forall i :: 0 <= i < |BytesToHex(bs)| ==> IsHexDigit(BytesToHex(bs)[i])
    ensures HexValue(BytesToHex(bs)) == BigEndianValue(bs)
    decreases |bs|
  {
    LowerHexAllHex(BytesToHex(bs));
    if |bs| > 0 {
      var prefix, last := bs[..|bs| - 1], bs[|bs| - 1];
      BytesToHexValue(prefix);
      var h := ByteToHex(last);
      HexCharDigit(last / 16);
      HexCharDigit(last % 16);
      assert h[..1] == [HexChar(last / 16)];
      assert HexValue(h[..1]) == last / 16;
      assert HexValue(h) == last / 16 * 16 + last % 16;
      LowerHexAllHex(BytesToHex(prefix));
      HexValueAppend(BytesToHex(prefix), h);
    }
  }

  lemma PackValue(v: int)
    requires 0 <= v < WORD
    ensures BigEndianValue(PackBigEndian32(v)) == v
  {
    var p := PackBigEndian32(v);
    var q1 := v / 0x100;
    var q2 := q1 / 0x100;
    assert p[..3][..2][..1] == [p[0]];
    assert p[..3][..2] == p[..2] && p[..3] == p[..3];
    assert BigEndianValue(p[..1]) == p[0];
    assert BigEndianValue(p[..2]) == q2;
    assert BigEndianValue(p[..3]) == q1;
  }

  lemma LowerOfLowerHex(s: string)
    requires IsLowerHex(s)
    ensures Lower(s) == s
  {
  }

  /**
   `inttohex`: eight lower-case hex digits whose base-16 value is `v`;
   `struct.pack` raises (modelled as `None`) outside [0, 2^32).
   */
  function IntToHex(v: int): (r: Option<string>)
    ensures r.Some? <==> 0 <= v < WORD
    ensures r.Some? ==> |r.value| == 8 && IsLowerHex(r.value)
    ensures r.Some? ==> (LowerHexAllHex(r.value); HexValue(r.value) == v)
  {
    if 0 <= v < WORD then
      var s := BytesToHex(PackBigEndian32(v));
      LowerOfLowerHex(s);
      BytesToHexValue(PackBigEndian32(v));
      PackValue(v);
      Some(Lower(s))
    else None
  }

  /** `inttohex` spelled out: the four packed bytes, two digits each. */
  lemma IntToHexDigits(v: int)
    requires 0 <= v < WORD
    ensures var p := PackBigEndian32(v);
            IntToHex(v) == Some(ByteToHex(p[0]) + ByteToHex(p[1]) + ByteToHex(p[2]) + ByteToHex(p[3]))
  {
    var p := PackBigEndian32(v);
    LowerOfLowerHex(BytesToHex(p));
    assert p[..3][..2][..1] == [p[0]];
    assert p[..3][..2] == p[..2] && p[..4][..3] == p[..3] && p[..4] == p;
    assert BytesToHex(p[..1]) == ByteToHex(p[0]);
    assert BytesToHex(p[..2]) == BytesToHex(p[..1]) + ByteToHex(p[1]);
    assert BytesToHex(p[..3]) == BytesToHex(p[..2]) + ByteToHex(p[2]);
    assert BytesToHex(p) == BytesToHex(p[..3]) + ByteToHex(p[3]);
  }

  /** Hex digits with single underscores between them, as `int(_, 16)` admits after the prefix. */
  predicate WellFormedDigits(d: string) {
    && |d| > 0
    && IsHexDigit(d[0]) && IsHexDigit(d[|d| - 1])
    && (forall i :: 0 <= i < |d| ==> IsHexDigit(d[i]) || d[i] == '_')
    && (forall i :: 0 <= i < |d| - 1 ==> d[i] != '_' || d[i + 1] != '_')
  }

  function RemoveUnderscores(d: string): (r: string)
    requires forall i :: 0 <= i < |d| ==> IsHexDigit(d[i]) || d[i] == '_'
    ensures forall i :: 0 <= i < |r| ==> IsHexDigit(r[i])
  {
    if |d| == 0 then ""
    else if d[0] == '_' then RemoveUnderscores(d[1..])
    else [d[0]] + RemoveUnderscores(d[1..])
  }

  /** The digits after an optional sign: a `0x`/`0X` prefix and one `_` after it are skipped. */
  function AfterPrefix(u: string): string {
    if |u| >= 2 && u[0] == '0' && (u[1] == 'x' || u[1] == 'X') then
      var w := u[2..];
      if |w| > 0 && w[0] == '_' then w[1..] else w
    else u
  }

  /** An optional leading `+` or `-`, and what follows it. */
  function SplitSign(t: string): (bool, string) {
    if |t| > 0 && (t[0] == '+' || t[0] == '-') then (t[0] == '-', t[1..]) else (false, t)
  }

  /**
   `hextoint`, i.e. Python's `int(s, 16)`: surrounding whitespace (as
   `int()` skips it, see `IntBlanks`), a sign, a `0x` prefix and underscores
   between digits are accepted, digits of either case; anything else raises
   `ValueError` (modelled as `None`).
   */
  function HexToInt(s: string): (r: Option<int>)
  {
    var (negative, unsigned) := SplitSign(StripNumeral(s));
    ReadSigned(negative, unsigned)
  }

  /** The numeral after the whitespace and the sign: an optional prefix, then the digits. */
  function ReadSigned(negative: bool, unsigned: string): Option<int> {
    var digits := AfterPrefix(unsigned);
    if WellFormedDigits(digits) then
      var n: int := HexValue(RemoveUnderscores(digits));
      Some(if negative then -n else n)
    else None
  }

  /** `to_output` is `inttohex`. */
  function ToOutput(v: int): Option<string> { IntToHex(v) }

  /** `to_internal` is `hextoint`. */
  function ToInternal(s: string): Option<int> { HexToInt(s) }

  lemma RemoveUnderscoresNone(d: string)
    requires forall i :: 0 <= i < |d| ==> IsHexDigit(d[i])
    ensures RemoveUnderscores(d) == d
  {
  }

  /** A bare run of hex digits of either case reads as its base-16 value. */
  lemma HexToIntOfDigits(s: string)
    requires |s| > 0 && forall i :: 0 <= i < |s| ==> IsHexDigit(s[i])
    ensures HexToInt(s) == Some(HexValue(s))
  {
    if |s| >= 2 {
      assert IsHexDigit(s[1]);
      NoPrefix(s);
    }
    RemoveUnderscoresNone(s);
    assert IsHexDigit(s[0]) && IsHexDigit(s[|s| - 1]);
    assert SplitSign(s) == (false, s);
    assert WellFormedDigits(s);
    StripNoSpace(s);
    PlainDigits(s);
  }

  lemma PlainDigits(s: string)
    requires forall i :: 0 <= i < |s| ==> IsHexDigit(s[i])
    requires WellFormedDigits(s)
    requires StripNumeral(s) == s && SplitSign(s) == (false, s) && AfterPrefix(s) == s
    requires RemoveUnderscores(s) == s
    ensures HexToInt(s) == Some(HexValue(s))
  {
  }

  lemma NoPrefix(u: string)
    requires |u| >= 2 && u[1] != 'x' && u[1] != 'X'
    ensures AfterPrefix(u) == u
  {
  }

  lemma StripNoSpace(s: string)
    requires forall i :: 0 <= i < |s| ==> IsHexDigit(s[i])
    ensures StripNumeral(s) == s
  {
    if |s| > 0 {
      assert !IsSpace(s[0]) && !IsSpace(s[|s| - 1]);
    }
    assert TrimStart(IntBlanks, s) == s;
  }

  /** Leading blanks before a non-blank character are all that `TrimStart` removes. */
  lemma {:induction false} TrimStartBlanks(k: Blanks, a: string, m: string)
    requires AllBlank(k, a) && |m| > 0 && !IsBlank(k, m[0])
    ensures TrimStart(k, a + m) == m
    decreases |a|
  {
    if |a| == 0 {
      assert a + m == m;
    } else {
      assert (a + m)[0] == a[0] && (a + m)[1..] == a[1..] + m;
      TrimStartBlanks(k, a[1..], m);
    }
  }

  /** Trailing blanks after a non-blank character are all that `TrimEnd` removes. */
  lemma {:induction false} TrimEndBlanks(k: Blanks, m: string, b: string)
    requires AllBlank(k, b) && |m| > 0 && !IsBlank(k, m[|m| - 1])
    ensures TrimEnd(k, m + b) == m
    decreases |b|
  {
    if |b| == 0 {
      assert m + b == m;
    } else {
      var b' := b[..|b| - 1];
      assert (m + b)[|m + b| - 1] == b[|b| - 1] && (m + b)[..|m + b| - 1] == m + b';
      TrimEndBlanks(k, m, b');
    }
  }

  /** Blanks around a text that starts and ends with a non-blank are what `StripNumeral` removes. */
  lemma StripNumeralPadded(pad1: string, core: string, pad2: string)
    requires AllBlank(IntBlanks, pad1) && AllBlank(IntBlanks, pad2)
    requires |core| > 0 && !IsBlank(IntBlanks, core[0]) && !IsBlank(IntBlanks, core[|core| - 1])
    ensures StripNumeral(pad1 + core + pad2) == core
  {
    assert pad1 + core + pad2 == pad1 + (core + pad2);
    assert (core + pad2)[0] == core[0];
    TrimStartBlanks(IntBlanks, pad1, core + pad2);
    TrimEndBlanks(IntBlanks, core, pad2);
  }

  /** An optional sign, then an optional `0x`/`0X`, then digits: the sign and prefix are split off. */
  lemma SignAndPrefix(sign: string, prefix: string, d: string)
    requires sign == "" || sign == "+" || sign == "-"
    requires prefix == "" || prefix == "0x" || prefix == "0X"
    requires |d| > 0 && forall i :: 0 <= i < |d| ==> IsHexDigit(d[i])
    ensures SplitSign(sign + prefix + d) == (sign == "-", prefix + d)
    ensures AfterPrefix(prefix + d) == d
  {
    var u := prefix + d;
    assert sign + prefix + d == sign + u;
    assert IsHexDigit(d[0]);
    if sign == "" {
      assert sign + u == u && u[0] == (if prefix == "" then d[0] else '0');
    } else {
      assert (sign + u)[0] == sign[0] && (sign + u)[1..] == u;
    }
    if prefix == "" {
      assert u == d;
      if |d| >= 2 {
        assert IsHexDigit(d[1]);
        NoPrefix(d);
      }
    } else {
      assert u[2..] == d && u[0] == '0' && (u[1] == 'x' || u[1] == 'X');
    }
  }

  /** A signed, prefixed digit run neither starts nor ends with a blank. */
  lemma NumeralEnds(sign: string, prefix: string, d: string)
    requires sign == "" || sign == "+" || sign == "-"
    requires prefix == "" || prefix == "0x" || prefix == "0X"
    requires |d| > 0 && forall i :: 0 <= i < |d| ==> IsHexDigit(d[i])
    ensures var core := sign + prefix + d;
            |core| > 0 && !IsBlank(IntBlanks, core[0]) && !IsBlank(IntBlanks, core[|core| - 1])
  {
    var core := sign + prefix + d;
    assert IsHexDigit(d[0]) && IsHexDigit(d[|d| - 1]);
    assert core[|core| - 1] == d[|d| - 1];
    assert core[0] == (if sign != "" then sign[0] else if prefix != "" then '0' else d[0]);
  }

  /**
   `int(s, 16)` of a digit run with an optional sign and `0x`/`0X` prefix,
   surrounded by whitespace `int()` skips, is the run's value, negated
   after a `-`.
   */
  lemma HexToIntSigned(pad1: string, sign: string, prefix: string, d: string, pad2: string)
    requires AllBlank(IntBlanks, pad1) && AllBlank(IntBlanks, pad2)
    requires sign == "" || sign == "+" || sign == "-"
    requires prefix == "" || prefix == "0x" || prefix == "0X"
    requires |d| > 0 && forall i :: 0 <= i < |d| ==> IsHexDigit(d[i])
    ensures var n: int := HexValue(d);
            HexToInt(pad1 + (sign + prefix + d) + pad2) == Some(if sign == "-" then -n else n)
  {
    var core := sign + prefix + d;
    var s := pad1 + core + pad2;
    NumeralEnds(sign, prefix, d);
    StripNumeralPadded(pad1, core, pad2);
    SignAndPrefix(sign, prefix, d);
    RemoveUnderscoresNone(d);
    HexToIntParts(s, sign == "-", prefix + d, d);
  }

  /** `HexToInt` read off the pieces its stages produce. */
  lemma HexToIntParts(s: string, negative: bool, u: string, d: string)
    requires SplitSign(StripNumeral(s)) == (negative, u) && AfterPrefix(u) == d
    requires forall i :: 0 <= i < |d| ==> IsHexDigit(d[i])
    requires |d| > 0 && RemoveUnderscores(d) == d
    ensures var n: int := HexValue(d);
            HexToInt(s) == Some(if negative then -n else n)
  {
    DigitRunWellFormed(d);
    assert HexToInt(s) == ReadSigned(negative, u);
  }

  /** A non-empty run of hex digits is a well-formed digit string. */
  lemma DigitRunWellFormed(d: string)
    requires |d| > 0 && forall i :: 0 <= i < |d| ==> IsHexDigit(d[i])
    ensures WellFormedDigits(d)
  {
    assert IsHexDigit(d[0]) && IsHexDigit(d[|d| - 1]);
  }

  /** Without any hexadecimal digit `int(s, 16)` raises: the result is `None`. */
  lemma HexToIntNoDigits(s: string)
    requires forall i :: 0 <= i < |s| ==> !IsHexDigit(s[i])
    ensures HexToInt(s) == None
  {
    var t := TrimStart(IntBlanks, s);
    var r := TrimEnd(IntBlanks, t);
    TrimStartSpec(IntBlanks, s);
    TrimEndSpec(IntBlanks, t);
    var off := |s| - |t|;
    assert forall i :: 0 <= i < |r| ==> r[i] == s[off + i];
    var unsigned := SplitSign(r).1;
    assert forall i :: 0 <= i < |unsigned| ==> !IsHexDigit(unsigned[i]);
    var digits := AfterPrefix(unsigned);
    assert forall i :: 0 <= i < |digits| ==> !IsHexDigit(digits[i]);
    assert !WellFormedDigits(digits);
  }

  /**
   The ASCII separator U+001C is whitespace to `str.strip()` but not to
   `int()`: `int('\x1c1f', 16)` raises although the stripped text is `1f`.
   */
  lemma HexToIntSeparator()
    ensures Strip("\U{1c}1f") == "1f"
    ensures HexToInt("\U{1c}1f") == None
  {
    var s := "\U{1c}1f";
    assert s[0] == '\U{1c}' && s[1..] == "1f" && s[|s| - 1] == 'f';
    assert TrimStart(StrBlanks, "1f") == "1f";
    assert TrimStart(IntBlanks, s) == s && TrimEnd(IntBlanks, s) == s;
    assert SplitSign(s) == (false, s) && AfterPrefix(s) == s;
    assert !IsHexDigit(s[0]);
  }

  /** `hextoint(inttohex(v)) == v` on the whole 32-bit range. */
  lemma IntToHexRoundTrip(v: int)
    requires 0 <= v < WORD
    ensures HexToInt(IntToHex(v).value) == Some(v)
  {
    var s := IntToHex(v).value;
    LowerHexAllHex(s);
    HexToIntOfDigits(s);
  }

  /** `inttohex(hextoint(s)) == s` for every canonical eight-digit lower-case rendering. */
  lemma HexToIntRoundTrip(s: string)
    requires |s| == 8 && IsLowerHex(s)
    ensures HexToInt(s).Some? && IntToHex(HexToInt(s).value) == Some(s)
  {
    LowerHexAllHex(s);
    HexToIntOfDigits(s);
    HexValueBound(s);
    assert Pow16(8) == WORD;
    var t := IntToHex(HexValue(s)).value;
    LowerHexAllHex(t);
    HexValueInjective(s, t);
  }
}

=== FILE: checksum.dfy ===
/**
 The streaming checksum accumulator (`Checksum` with its `Adler32`
 instantiation): a running Adler-32 state folded over a finite sequence of
 byte buffers, plus the diagnostic byte and buffer counters.
 */
module Checksum {
  import opened Wrappers
  import opened Text
  import Adler32

  /**
   The observable state of one accumulator object: its name, the internal
   checksum state, the two counters, and `value`, the last output string
   (absent until `calc_checksum` has run).
   */
  datatype Accumulator = Accumulator(
    name: string,
    cksValue: int,
    bytesRead: nat,
    numberBuffers: nat,
    value: Option<string>)

  /** The class invariant: the internal state is a reachable Adler-32 state. */
  predicate Valid(acc: Accumulator) {
    Adler32.ValidState(acc.cksValue)
  }

  /** `Adler32(name)`: counters at zero and the state at Adler-32's identity. */
  function NewAdler32(name: string): (acc: Accumulator)
    ensures Valid(acc)
    ensures acc.bytesRead == 0 && acc.numberBuffers == 0
    ensures acc.name == name && acc.value == None
  {
    Accumulator(name, Adler32.INITIAL, 0, 0, None)
  }

  /** The buffers laid end to end. */
  function Concat(bufs: seq<seq<byte>>): seq<byte> {
    if |bufs| == 0 then [] else Concat(bufs[..|bufs| - 1]) + bufs[|bufs| - 1]
  }

  lemma {:induction false} ConcatAppend(a: seq<seq<byte>>, b: seq<seq<byte>>)
    ensures Concat(a + b) == Concat(a) + Concat(b)
    decreases |b|
  {
    if |b| == 0 {
      assert a + b == a;
    } else {
      var b' := b[..|b| - 1];
      assert (a + b)[..|a + b| - 1] == a + b';
      assert (a + b)[|a + b| - 1] == b[|b| - 1];
      ConcatAppend(a, b');
    }
  }

  /** One iteration of the loop in `calc_checksum`: `_checksum(buf)` and both counters. */
  function Consume(acc: Accumulator, buf: seq<byte>): (r: Accumulator)
    requires Valid(acc)
  {
    acc.(cksValue := Adler32.Update(acc.cksValue, buf),
         bytesRead := acc.bytesRead + |buf|,
         numberBuffers := acc.numberBuffers + 1)
  }

  /**
   The loop of `calc_checksum`: `Consume` applied to each buffer in order.
   Its result is one pass of the update over the concatenated buffers,
   whatever the chunking.
   */
  function ConsumeAll(acc: Accumulator, bufs: seq<seq<byte>>): (r: Accumulator)
    requires Valid(acc)
    ensures Valid(r)
    ensures r.cksValue == Adler32.Update(acc.cksValue, Concat(bufs))
    ensures r.bytesRead == acc.bytesRead + |Concat(bufs)|
    ensures r.numberBuffers == acc.numberBuffers + |bufs|
    ensures r.name == acc.name && r.value == acc.value
  {
    if |bufs| == 0 then acc
    else
      var prefix := bufs[..|bufs| - 1];
      var mid := ConsumeAll(acc, prefix);
      Adler32.UpdateConcat(acc.cksValue, Concat(prefix), bufs[|bufs| - 1]);
      Consume(mid, bufs[|bufs| - 1])
  }

  /**
   `calc_checksum(buffers)`: the accumulator after the loop, with `value`
   set, and the returned string. The returned string is the hex rendering
   of the final state, and that same string is stored in `value`.
   */
  function CalcChecksum(acc: Accumulator, bufs: seq<seq<byte>>): (r: (Accumulator, string))
    requires Valid(acc)
    ensures Valid(r.0)
    ensures r.0.cksValue == Adler32.Update(acc.cksValue, Concat(bufs))
    ensures r.0.bytesRead == acc.bytesRead + |Concat(bufs)|
    ensures r.0.numberBuffers == acc.numberBuffers + |bufs|
    ensures Adler32.ToOutput(r.0.cksValue) == Some(r.1)
    ensures r.0.value == Some(r.1) && r.0.name == acc.name
  {
    var done := ConsumeAll(acc, bufs);
    var out := Adler32.ToOutput(done.cksValue).value;
    (done.(value := Some(out)), out)
  }

  /** With no buffers nothing changes but `value`, which becomes the hex of the current state. */
  lemma CalcChecksumEmpty(acc: Accumulator)
    requires Valid(acc)
    ensures var (r, out) := CalcChecksum(acc, []);
            && r == acc.(value := Some(out))
            && Some(out) == Adler32.IntToHex(acc.cksValue)
  {
    assert Concat([]) == [];
  }

  /**
   State and counters persist across calls: calling on `a` and then on `b`
   leaves the same accumulator, and returns the same string, as one call on
   `a + b`.
   */
  lemma CalcChecksumSequential(acc: Accumulator, a: seq<seq<byte>>, b: seq<seq<byte>>)
    requires Valid(acc)
    ensures CalcChecksum(CalcChecksum(acc, a).0, b) == CalcChecksum(acc, a + b)
  {
    var first := CalcChecksum(acc, a).0;
    ConcatAppend(a, b);
    Adler32.UpdateConcat(acc.cksValue, Concat(a), Concat(b));
    var two := CalcChecksum(first, b);
    var one := CalcChecksum(acc, a + b);
    assert two.0.cksValue == one.0.cksValue;
    assert two.1 == one.1;
  }

  /** A fresh accumulator over no buffers yields `"00000001"` and zero counters. */
  lemma FreshAccumulatorIdentity(name: string)
    ensures var (r, out) := CalcChecksum(NewAdler32(name), []);
            && out == "00000001" && r.bytesRead == 0 && r.numberBuffers == 0
  {
    CalcChecksumEmpty(NewAdler32(name));
    Adler32.IntToHexDigits(1);
    assert Adler32.PackBigEndian32(1) == [0, 0, 0, 1];
    assert Adler32.ByteToHex(0) == "00" && Adler32.ByteToHex(1) == "01";
  }

  /** The accumulator over `[b'1234']` yields `"01f800cb"`. */
  lemma Vector1234()
    ensures CalcChecksum(NewAdler32("adler32"), [[0x31, 0x32, 0x33, 0x34]]).1 == "01f800cb"
  {
    var data: seq<byte> := [0x31, 0x32, 0x33, 0x34];
    assert Concat([data]) == data;
    Adler32Of1234();
    HexOf1234();
  }

  lemma Adler32Of1234()
    ensures Adler32.Update(Adler32.INITIAL, [0x31, 0x32, 0x33, 0x34]) == 0x01f800cb
  {
    var data: seq<byte> := [0x31, 0x32, 0x33, 0x34];
    var prefix: seq<byte> := [0x31, 0x32, 0x33];
    Adler32Of123();
    assert data[..3] == prefix && data[3] == 0x34;
    assert Adler32.Update(Adler32.INITIAL, data) == Adler32.Step(Adler32.Combine(301, 151), 0x34);
    Adler32.StepCombined(301, 151, 0x34);
    assert (151 + 0x34) % Adler32.BASE == 203 && (301 + 203) % Adler32.BASE == 504;
    assert Adler32.Combine(504, 203) == 0x01f800cb;
  }

  lemma Adler32Of123()
    ensures Adler32.Update(Adler32.INITIAL, [0x31, 0x32, 0x33]) == Adler32.Combine(301, 151)
  {
    var data: seq<byte> := [0x31, 0x32, 0x33];
    var prefix: seq<byte> := [0x31, 0x32];
    Adler32Of12();
    assert data[..2] == prefix && data[2] == 0x33;
    assert Adler32.Update(Adler32.INITIAL, data) == Adler32.Step(Adler32.Combine(150, 100), 0x33);
    Adler32.StepCombined(150, 100, 0x33);
    assert (100 + 0x33) % Adler32.BASE == 151 && (150 + 151) % Adler32.BASE == 301;
  }

  lemma Adler32Of12()
    ensures Adler32.Update(Adler32.INITIAL, [0x31, 0x32]) == Adler32.Combine(150, 100)
  {
    var data: seq<byte> := [0x31, 0x32];
    var prefix: seq<byte> := [0x31];
    Adler32Of1();
    assert data[..1] == prefix && data[1] == 0x32;
    assert Adler32.Update(Adler32.INITIAL, data) == Adler32.Step(Adler32.Combine(50, 50), 0x32);
    Adler32.StepCombined(50, 50, 0x32);
    assert (50 + 0x32) % Adler32.BASE == 100 && (50 + 100) % Adler32.BASE == 150;
  }

  lemma Adler32Of1()
    ensures Adler32.Update(Adler32.INITIAL, [0x31]) == Adler32.Combine(50, 50)
  {
    var data: seq<byte> := [0x31];
    assert data[..0] == [] && data[0] == 0x31;
    assert Adler32.Combine(0, 1) == Adler32.INITIAL;
    assert Adler32.Update(Adler32.INITIAL, data) == Adler32.Step(Adler32.Combine(0, 1), 0x31);
    Adler32.StepCombined(0, 1, 0x31);
    assert (1 + 0x31) % Adler32.BASE == 50 && (0 + 50) % Adler32.BASE == 50;
  }

  lemma HexOf1234()
    ensures Adler32.ToOutput(0x01f800cb) == Some("01f800cb")
  {
    var v := 0x01f800cb;
    assert v / 0x100 == 0x01f800 && v / 0x100 / 0x100 == 0x01f8 && v / 0x100 / 0x100 / 0x100 == 0x01;
    assert v % 0x100 == 0xcb && v / 0x100 % 0x100 == 0 && v / 0x100 / 0x100 % 0x100 == 0xf8;
    Adler32.IntToHexDigits(v);
    assert Adler32.PackBigEndian32(v) == [0x01, 0xf8, 0x00, 0xcb];
    var h0, h1, h2, h3 := Adler32.ByteToHex(0x01), Adler32.ByteToHex(0xf8), Adler32.ByteToHex(0x00), Adler32.ByteToHex(0xcb);
    assert h0 == "01" && h1 == "f8" && h2 == "00" && h3 == "cb";
    assert h0 + h1 + h2 + h3 == "01f800cb";
  }
}

/**
 The `adler32` wrapper class: a thin shell that holds an `Adler32`
 accumulator and forwards its static conversions and `calc_checksum`.
 */
module LegacyAdler32 {
  import opened Wrappers
  import opened Text
  import Adler32
  import Checksum

  datatype Wrapper = Wrapper(impl: Checksum.Accumulator)

  predicate Valid(w: Wrapper) {
    Checksum.Valid(w.impl)
  }

  /** `adler32(name)`: the wrapper holds a fresh accumulator of that name. */
  function New(name: string): (w: Wrapper)
    ensures Valid(w)
    ensures w.impl.cksValue == Adler32.INITIAL && w.impl.bytesRead == 0 && w.impl.numberBuffers == 0
    ensures w.impl.name == name && w.impl.value == None
  {
    Wrapper(Checksum.NewAdler32(name))
  }

  /** `adler32_inttohex` forwards to `Adler32.inttohex`. */
  function IntToHex(v: int): Option<string> {
    Adler32.IntToHex(v)
  }

  /** `adler32_hextoint` forwards to `Adler32.hextoint`. */
  function HexToInt(s: string): Option<int> {
    Adler32.HexToInt(s)
  }

  /** `calc_checksum` forwards to the held accumulator. */
  function CalcChecksum(w: Wrapper, bufs: seq<seq<byte>>): (r: (Wrapper, string))
    requires Valid(w)
  {
    var (impl, out) := Checksum.CalcChecksum(w.impl, bufs);
    (Wrapper(impl), out)
  }

  /** The wrapper returns exactly what the wrapped accumulator returns, and keeps its state. */
  lemma Delegation(w: Wrapper, bufs: seq<seq<byte>>, v: int, s: string)
    requires Valid(w)
    ensures CalcChecksum(w, bufs).1 == Checksum.CalcChecksum(w.impl, bufs).1
    ensures CalcChecksum(w, bufs).0.impl == Checksum.CalcChecksum(w.impl, bufs).0
    ensures IntToHex(v) == Adler32.ToOutput(v) && HexToInt(s) == Adler32.ToInternal(s)
  {
  }

  /** 999476992 renders as `"3b92cf00"`. */
  lemma VectorIntToHex()
    ensures IntToHex(999476992) == Some("3b92cf00")
  {
    var p := Adler32.PackBigEndian32(999476992);
    assert p == [0x3b, 0x92, 0xcf, 0x00];
    Adler32.IntToHexDigits(999476992);
    var h0, h1, h2, h3 := Adler32.ByteToHex(p[0]), Adler32.ByteToHex(p[1]), Adler32.ByteToHex(p[2]), Adler32.ByteToHex(p[3]);
    assert h0 == "3b" && h1 == "92" && h2 == "cf" && h3 == "00";
    assert h0 + h1 + h2 + h3 == "3b92cf00";
  }

  /** `"3b92cf00"` reads back as 999476992. */
  lemma VectorHexToInt()
    ensures HexToInt("3b92cf00") == Some(999476992)
  {
    VectorIntToHex();
    Adler32.IntToHexRoundTrip(999476992);
  }

  /** A fresh wrapper over no buffers returns `"00000001"`. */
  lemma VectorEmpty()
    ensures CalcChecksum(New("adler32"), []).1 == "00000001"
  {
    Checksum.FreshAccumulatorIdentity("adler32");
  }

  /** A fresh wrapper over `[b'1234']` returns `"01f800cb"`. */
  lemma Vector1234()
    ensures CalcChecksum(New("adler32"), [[0x31, 0x32, 0x33, 0x34]]).1 == "01f800cb"
  {
    Checksum.Vector1234();
  }
}

=== FILE: cli.dfy ===
/**
 The pure decisions of the `cephsum` command: parsing the `-C` option,
 choosing the policy for `--action`, converting the read size, and mapping
 the reconciled record and the source checksum to the process exit code.
 Returned values stand in for raised exceptions and for `sys.exit`.
 */
module Cli {
  import opened Wrappers
  import opened Text
  import Adler32
  import Actions

  const ERRCODE_OK: int := 0
  const ERRCODE_MISMATCH_SOURCE: int := 101
  const ERRCODE_NO_CHECKSUM: int := 102
  const ERRCODE_FAILED_VERIFY: int := 103

  /** The attribute every action uses. */
  const XATTR_NAME: string := "XrdCks.adler32"

  /** The exceptions the command raises before it exits. */
  datatype CliError =
    | AlgorithmNotImplemented(algorithm: string)   // NotImplementedError for -C
    | SourceRequired                               // ValueError for 'check'
    | ActionNotImplemented(action: string)         // NotImplementedError for --action

  /** The meaning of `-C alg[:value]`. */
  datatype TypeOption = TypeOption(algorithm: string, source: Option<string>)

  /**
   `-C` handling: the option split on `:`, the first field lower-cased with
   `auto` standing for `adler32` and anything else refused; the second field,
   lower-cased, is the source checksum; `check` needs one.
   */
  function ParseTypeOption(option: string, action: string): (r: Result<TypeOption, CliError>)
    ensures var fields := Split(option, ':');
            var name := Lower(fields[0]);
            && (r.Success? <==> (name == "adler32" || name == "auto") && (action != "check" || |fields| >= 2))
            && (name != "adler32" && name != "auto" ==> r == Failure(AlgorithmNotImplemented(name)))
            && (r.Success? ==> r.value.algorithm == "adler32")
            && (r.Success? ==> r.value.source == if |fields| >= 2 then Some(Lower(fields[1])) else None)
  {
    var fields := Split(option, ':');
    var name := Lower(fields[0]);
    var algorithm := if name == "auto" then "adler32" else name;
    if algorithm != "adler32" then Failure(AlgorithmNotImplemented(algorithm))
    else
      var source := if |fields| < 2 then None else Some(Lower(fields[1]));
      if action == "check" && source.None? then Failure(SourceRequired)
      else Success(TypeOption(algorithm, source))
  }

  /**
   `-C name:value` with a colon-free name and value yields the lower-cased
   value as source, and any further `:`-separated fields are ignored.
   */
  lemma {:induction false} ParseTypeOptionSource(name: string, value: string, extra: seq<string>, action: string)
    requires ':' !in name && ':' !in value
    requires forall k :: 0 <= k < |extra| ==> ':' !in extra[k]
    requires Lower(name) == "adler32" || Lower(name) == "auto"
    ensures var option := Join([name, value] + extra, ':');
            ParseTypeOption(option, action) == Success(TypeOption("adler32", Some(Lower(value))))
  {
    var parts := [name, value] + extra;
    forall k | 0 <= k < |parts| ensures ':' !in parts[k] {
      if k >= 2 {
        assert parts[k] == extra[k - 2];
      }
    }
    SplitJoin(parts, ':');
  }

  /** A colon-free `-C` value gives no source checksum, so `check` is refused. */
  lemma ParseTypeOptionNoSource(option: string, action: string)
    requires ':' !in option
    requires Lower(option) == "adler32" || Lower(option) == "auto"
    ensures ParseTypeOption(option, action)
         == if action == "check" then Failure(SourceRequired) else Success(TypeOption("adler32", None))
  {
    SplitJoin([option], ':');
  }

  /** The policy an `--action` selects. */
  datatype ActionKind = Inget | Verify | Get | MetaOnly | FileOnly

  /** Action dispatch: `inget` and `check` both run `inget`; unknown actions are refused. */
  function Dispatch(action: string): (r: Result<ActionKind, CliError>)
    ensures r.Failure? <==> action !in {"inget", "check", "verify", "get", "metaonly", "fileonly"}
    ensures r.Failure? ==> r.error == ActionNotImplemented(action)
    ensures action == "inget" || action == "check" ==> r == Success(Inget)
    ensures action == "verify" ==> r == Success(Verify)
    ensures action == "get" ==> r == Success(Get)
    ensures action == "metaonly" ==> r == Success(MetaOnly)
    ensures action == "fileonly" ==> r == Success(FileOnly)
  {
    if action == "inget" || action == "check" then Success(Inget)
    else if action == "verify" then Success(Verify)
    else if action == "get" then Success(Get)
    else if action == "metaonly" then Success(MetaOnly)
    else if action == "fileonly" then Success(FileOnly)
    else Failure(ActionNotImplemented(action))
  }

  /** `--readsize` is given in MiB; the policies read chunks of this many bytes. */
  function ReadsizeBytes(mib: int): (n: int)
    ensures n % 0x10_0000 == 0 && n / 0x10_0000 == mib
    ensures mib > 0 <==> n > 0
  {
    mib * 1024 * 1024
  }

  /** The policies that dereference a missing content checksum must not meet one. */
  predicate ActionDefined(kind: ActionKind, store: Actions.Store, path: string) {
    && (kind == Get ==> Actions.GetChecksumDefined(store, path, XATTR_NAME))
    && (kind == Verify ==> Actions.VerifyDefined(store, path, XATTR_NAME))
  }

  /**
   Runs the selected policy with the arguments the command passes: `inget`
   with rewriting on, `verify` without a forced content read. Only `inget`
   writes; every result is a record the store holds or the content yields.
   */
  function RunAction(kind: ActionKind, store: Actions.Store, path: string, readsize: int): (o: Actions.Outcome)
    requires ActionDefined(kind, store, path)
    ensures kind != Inget ==> Actions.Writes(o.events) == []
    ensures kind == Inget ==>
              var key := Actions.MetaKey(path, XATTR_NAME);
              key in store.meta ==>
                Actions.Writes(o.events)
                == if store.meta[key].readFormat == Actions.Big
                   then [Actions.WriteMeta(path, XATTR_NAME, store.meta[key], true)] else []
    ensures kind == Inget ==>
              var key := Actions.MetaKey(path, XATTR_NAME);
              key in store.meta ==> o.result == Some(store.meta[key])
    ensures kind == Inget ==>
              var key := Actions.MetaKey(path, XATTR_NAME);
              key !in store.meta && path in store.content ==>
                && o.result == Some(store.content[path])
                && Actions.Writes(o.events) == [Actions.WriteMeta(path, XATTR_NAME, store.content[path], false)]
    ensures kind == Inget ==>
              var key := Actions.MetaKey(path, XATTR_NAME);
              key !in store.meta && path !in store.content ==> o.result == None && Actions.Writes(o.events) == []
    ensures kind == Get ==>
              var key := Actions.MetaKey(path, XATTR_NAME);
              o.result == if key in store.meta then Some(store.meta[key]) else Some(store.content[path])
    ensures kind == Verify ==>
              var key := Actions.MetaKey(path, XATTR_NAME);
              && (o.result.Some? <==> key in store.meta && store.meta[key].cksum == store.content[path].cksum)
              && (o.result.Some? ==> o.result == Some(store.meta[key]))
    ensures kind == MetaOnly ==> o.result == Actions.MetaLookup(store, path, XATTR_NAME)
    ensures kind == FileOnly ==> o.result == Actions.FileLookup(store, path)
    ensures kind == Verify ==> (Actions.ReadsFile(o.events) <==> Actions.MetaKey(path, XATTR_NAME) in store.meta)
    ensures kind == MetaOnly ==> o.events == [Actions.ReadMeta(path, XATTR_NAME)]
    ensures kind == FileOnly ==> o.events == [Actions.ReadFile(path, readsize)]
    ensures o.result.Some? ==>
              o.result == Actions.MetaLookup(store, path, XATTR_NAME) || o.result == Actions.FileLookup(store, path)
  {
    match kind
    case Inget => Actions.Inget(store, path, readsize, XATTR_NAME, true)
    case Verify => Actions.Verify(store, path, readsize, XATTR_NAME, false)
    case Get => Actions.GetChecksum(store, path, readsize, XATTR_NAME)
    case MetaOnly => Actions.GetFromMetadata(store, path, XATTR_NAME)
    case FileOnly => Actions.GetFromFile(store, path, readsize)
  }

  /** `get_cksum_as_hex`: the raw checksum bytes as lower-case hex digits. */
  function CksumHex(r: Actions.Record): (h: string)
    ensures |h| == 2 * |r.cksum| && IsLowerHex(h)
    ensures HexValue(h) == Adler32.BigEndianValue(r.cksum)
  {
    Adler32.BytesToHexValue(r.cksum);
    Adler32.BytesToHex(r.cksum)
  }

  /** The hex text of the policy's result, if it produced one. */
  function ResultHex(o: Actions.Outcome): Option<string> {
    if o.result.Some? then Some(CksumHex(o.result.value)) else None
  }

  /**
   The exit code chosen after the action ran, before the final `sys.exit`:
   `check` fails unless the source equals the result's hex, `verify`
   without a result fails verification, and any other comparison with a
   given source fails on a difference. A missing result compares as `N/A`.
   */
  function PreliminaryCode(action: string, hex: Option<string>, source: Option<string>): int {
    var hexText := if hex.None? then "N/A" else hex.value;
    if action == "check" then
      if hex.None? || source != Some(hexText) then ERRCODE_MISMATCH_SOURCE else ERRCODE_OK
    else if action == "verify" && hex.None? then ERRCODE_FAILED_VERIFY
    else if source.Some? && source != Some(hexText) then ERRCODE_MISMATCH_SOURCE
    else ERRCODE_OK
  }

  /**
   The code the process exits with: the preliminary code when a record was
   reconciled, 102 when none was. A failed `verify` therefore never exits
   with 103, and a reconciled record exits with 101 exactly when a source
   is required or given and differs from the record's hex.
   */
  function ExitCode(action: string, hex: Option<string>, source: Option<string>): (code: int)
    ensures hex.None? ==> code == ERRCODE_NO_CHECKSUM
    ensures code != ERRCODE_FAILED_VERIFY
    ensures hex.Some? ==>
              (code == ERRCODE_MISMATCH_SOURCE <==>
                 (source.Some? && source.value != hex.value) || (action == "check" && source.None?))
    ensures hex.Some? && code != ERRCODE_MISMATCH_SOURCE ==> code == ERRCODE_OK
  {
    var preliminary := PreliminaryCode(action, hex, source);
    if hex.Some? then preliminary else ERRCODE_NO_CHECKSUM
  }

  /** The command line as far as this model reads it; the object is already resolved. */
  datatype Invocation = Invocation(typeOption: string, action: string, readsizeMiB: int, path: string)

  /** How the command ends: an exit code with what it printed and the store operations it issued, or an exception. */
  datatype Termination =
    | Exit(code: int, stdout: string, events: seq<Actions.Event>)
    | Raise(error: CliError)

  /** The command cannot crash on a missing content checksum in `get` or `verify`. */
  predicate InvocationDefined(inv: Invocation, store: Actions.Store) {
    Dispatch(inv.action).Success? ==> ActionDefined(Dispatch(inv.action).value, store, inv.path)
  }

  /**
   The command end to end: option parsing, dispatch, the policy, and the
   exit code; on success the reconciled record's hex is printed.
   */
  function Cephsum(inv: Invocation, store: Actions.Store): (t: Termination)
    requires InvocationDefined(inv, store)
    ensures ParseTypeOption(inv.typeOption, inv.action).Failure? ==>
              t == Raise(ParseTypeOption(inv.typeOption, inv.action).error)
    ensures ParseTypeOption(inv.typeOption, inv.action).Success? && Dispatch(inv.action).Failure? ==>
              t == Raise(ActionNotImplemented(inv.action))
    ensures ParseTypeOption(inv.typeOption, inv.action).Success? && Dispatch(inv.action).Success? ==>
              var o := RunAction(Dispatch(inv.action).value, store, inv.path, ReadsizeBytes(inv.readsizeMiB));
              && t.Exit? && t.events == o.events
              && t.code == ExitCode(inv.action, ResultHex(o), ParseTypeOption(inv.typeOption, inv.action).value.source)
              && (o.result.Some? ==> t.stdout == CksumHex(o.result.value) + "\n")
    ensures t.Exit? ==> t.code != ERRCODE_FAILED_VERIFY
    ensures t.Exit? ==> (t.stdout == "" <==> t.code == ERRCODE_NO_CHECKSUM)
  {
    var readsize := ReadsizeBytes(inv.readsizeMiB);
    match ParseTypeOption(inv.typeOption, inv.action)
    case Failure(e) => Raise(e)
    case Success(option) =>
      match Dispatch(inv.action)
      case Failure(e) => Raise(e)
      case Success(kind) =>
        var outcome := RunAction(kind, store, inv.path, readsize);
        var hex := ResultHex(outcome);
        var code := ExitCode(inv.action, hex, option.source);
        Exit(code, if hex.Some? then hex.value + "\n" else "", outcome.events)
  }

  /**
   `check` and `inget` issue the same store operations; `check` succeeds
   exactly when the record `inget` reconciles has the source's hex.
   */
  lemma CheckRunsInget(inv: Invocation, store: Actions.Store)
    requires inv.action == "check"
    requires InvocationDefined(inv, store)
    ensures var t := Cephsum(inv, store);
            var asInget := Cephsum(inv.(action := "inget"), store);
            && (t.Exit? ==> asInget.Exit? && t.events == asInget.events && t.stdout == asInget.stdout)
            && (t.Exit? ==> (t.code == ERRCODE_OK <==>
                 var o := Actions.Inget(store, inv.path, ReadsizeBytes(inv.readsizeMiB), XATTR_NAME, true);
                 o.result.Some? && ParseTypeOption(inv.typeOption, "check").value.source == Some(CksumHex(o.result.value))))
  {
    var p := ParseTypeOption(inv.typeOption, "check");
    if p.Success? {
      assert ParseTypeOption(inv.typeOption, "inget") == p;
    }
  }

  /**
   When the reconciliation yields nothing the command prints nothing and
   exits with 102, whatever the action and the source.
   */
  lemma NoResultExits102(inv: Invocation, store: Actions.Store)
    requires InvocationDefined(inv, store)
    requires ParseTypeOption(inv.typeOption, inv.action).Success? && Dispatch(inv.action).Success?
    requires RunAction(Dispatch(inv.action).value, store, inv.path, ReadsizeBytes(inv.readsizeMiB)).result.None?
    ensures Cephsum(inv, store).Exit? && Cephsum(inv, store).code == ERRCODE_NO_CHECKSUM
    ensures Cephsum(inv, store).stdout == ""
  {
  }

  // The help text against the code. The help promises that `inget` and
  // `check` with a source checksum add no metadata when the source differs,
  // and that `-C adler32:print` prints without verifying. The code does
  // neither: `inget` inserts before the source is compared, and `print` is
  // compared like any other source value. `Cephsum` above follows the code;
  // `CephsumAsDocumented` below follows the help text.

  /** `-C adler32:<source>` as the option string. */
  function SourceOption(source: string): string {
    "adler32:" + source
  }

  lemma SourceOptionParses(source: string, action: string)
    requires ':' !in source
    ensures ParseTypeOption(SourceOption(source), action) == Success(TypeOption("adler32", Some(Lower(source))))
  {
    var parts: seq<string> := ["adler32", source];
    assert parts[1..] == [source];
    assert Join(parts, ':') == SourceOption(source);
    assert parts + [] == parts;
    assert Lower("adler32") == "adler32";
    ParseTypeOptionSource("adler32", source, [], action);
  }

  /**
   As written: with no stored record, `inget` and `check` insert the content
   record even when it differs from the given source, and then exit 101.
   */
  lemma InsertsDespiteMismatch(source: string, action: string, mib: int, path: string, rec: Actions.Record)
    requires action == "inget" || action == "check"
    requires ':' !in source && Lower(source) != CksumHex(rec)
    ensures var t := Cephsum(Invocation(SourceOption(source), action, mib, path), Actions.Store(map[], map[path := rec]));
            && t.Exit? && t.code == ERRCODE_MISMATCH_SOURCE
            && Actions.Writes(t.events) == [Actions.WriteMeta(path, XATTR_NAME, rec, false)]
  {
    SourceOptionParses(source, action);
  }

  /**
   As written: `-C adler32:print` is compared as a source checksum, and no
   hex rendering equals `print`, so every reconciled record exits 101.
   */
  lemma PrintIsCompared(action: string, mib: int, path: string, store: Actions.Store)
    requires Dispatch(action).Success?
    requires InvocationDefined(Invocation(SourceOption("print"), action, mib, path), store)
    requires RunAction(Dispatch(action).value, store, path, ReadsizeBytes(mib)).result.Some?
    ensures var t := Cephsum(Invocation(SourceOption("print"), action, mib, path), store);
            t.Exit? && t.code == ERRCODE_MISMATCH_SOURCE
  {
    PrintOptionParses(action);
    var o := RunAction(Dispatch(action).value, store, path, ReadsizeBytes(mib));
    PrintIsNoHex(o.result.value);
    assert ResultHex(o) == Some(CksumHex(o.result.value));
  }

  lemma PrintOptionParses(action: string)
    ensures ParseTypeOption(SourceOption("print"), action) == Success(TypeOption("adler32", Some("print")))
  {
    assert ':' !in "print";
    SourceOptionParses("print", action);
    LowerPrint();
  }

  lemma LowerPrint()
    ensures Lower("print") == "print"
  {
    var p := "print";
    assert forall i :: 0 <= i < |p| ==> LowerChar(p[i]) == p[i];
  }

  /** `print` is not the hex rendering of any checksum. */
  lemma PrintIsNoHex(r: Actions.Record)
    ensures CksumHex(r) != "print"
  {
    var h := CksumHex(r);
    if |h| > 0 {
      assert IsLowerHexDigit(h[0]);
    }
  }

  /** The source the help text describes: `print` asks for no comparison. */
  function DocumentedSource(source: Option<string>): (r: Option<string>)
    ensures r.None? <==> source.None? || source == Some("print")
    ensures r.Some? ==> r == source
  {
    if source == Some("print") then None else source
  }

  /**
   `inget` as the help text describes it: with no stored record the content
   record is returned, but only inserted when there is no source or the
   source equals its hex; a stored record is handled as the code does.
   */
  function IngetAsDocumented(store: Actions.Store, path: string, readsize: int, source: Option<string>): (o: Actions.Outcome)
    ensures Actions.MetaKey(path, XATTR_NAME) in store.meta ==>
              o == Actions.Inget(store, path, readsize, XATTR_NAME, true)
    ensures Actions.MetaKey(path, XATTR_NAME) !in store.meta && path in store.content ==>
              && o.result == Some(store.content[path])
              && Actions.Writes(o.events)
                 == if source.None? || source == Some(CksumHex(store.content[path]))
                    then [Actions.WriteMeta(path, XATTR_NAME, store.content[path], false)] else []
    ensures Actions.MetaKey(path, XATTR_NAME) !in store.meta && path !in store.content ==>
              o.result == None && Actions.Writes(o.events) == []
    ensures Actions.ReadsFile(o.events) <==> Actions.MetaKey(path, XATTR_NAME) !in store.meta
  {
    var o := Actions.Inget(store, path, readsize, XATTR_NAME, true);
    var key := Actions.MetaKey(path, XATTR_NAME);
    if key !in store.meta && path in store.content && source.Some? && source.value != CksumHex(store.content[path]) then
      var events := [Actions.ReadMeta(path, XATTR_NAME), Actions.ReadFile(path, readsize)];
      assert events[1].ReadFile?;
      assert Actions.Writes(events[1..]) == [];
      Actions.Outcome(o.result, events)
    else o
  }

  /**
   The selected policy under the help text's reading: only `inget` changes,
   and no policy inserts a record whose hex differs from a given source.
   */
  function RunDocumented(kind: ActionKind, store: Actions.Store, path: string, readsize: int, source: Option<string>): (o: Actions.Outcome)
    requires ActionDefined(kind, store, path)
    ensures kind != Inget ==> o == RunAction(kind, store, path, readsize)
    ensures kind == Inget ==> o == IngetAsDocumented(store, path, readsize, source)
    ensures forall k :: 0 <= k < |Actions.Writes(o.events)| && !Actions.Writes(o.events)[k].forceOverwrite ==>
              source.None? || source == Some(CksumHex(Actions.Writes(o.events)[k].payload))
  {
    if kind == Inget then IngetAsDocumented(store, path, readsize, source)
    else RunAction(kind, store, path, readsize)
  }

  /**
   The command as its help text describes it: `print` is not compared, and
   `inget`/`check` with a source insert a computed record only when it
   matches. Everything else is as in `Cephsum`.
   */
  function CephsumAsDocumented(inv: Invocation, store: Actions.Store): (t: Termination)
    requires InvocationDefined(inv, store)
    ensures ParseTypeOption(inv.typeOption, inv.action).Failure? ==>
              t == Raise(ParseTypeOption(inv.typeOption, inv.action).error)
    ensures ParseTypeOption(inv.typeOption, inv.action).Success? && Dispatch(inv.action).Failure? ==>
              t == Raise(ActionNotImplemented(inv.action))
    ensures ParseTypeOption(inv.typeOption, inv.action).Success? && Dispatch(inv.action).Success? ==>
              var src := DocumentedSource(ParseTypeOption(inv.typeOption, inv.action).value.source);
              var o := RunDocumented(Dispatch(inv.action).value, store, inv.path, ReadsizeBytes(inv.readsizeMiB), src);
              && t.Exit? && t.events == o.events
              && t.code == ExitCode(inv.action, ResultHex(o), src)
              && (o.result.Some? ==> t.stdout == CksumHex(o.result.value) + "\n")
    ensures t.Exit? ==>
              var source := DocumentedSource(ParseTypeOption(inv.typeOption, inv.action).value.source);
              forall k :: 0 <= k < |Actions.Writes(t.events)| && !Actions.Writes(t.events)[k].forceOverwrite ==>
                source.None? || source == Some(CksumHex(Actions.Writes(t.events)[k].payload))
    ensures t.Exit? ==> t.code != ERRCODE_FAILED_VERIFY
    ensures t.Exit? ==> (t.stdout == "" <==> t.code == ERRCODE_NO_CHECKSUM)
    ensures t.Exit? && inv.action != "check" && ParseTypeOption(inv.typeOption, inv.action).value.source == Some("print") ==>
              t.code != ERRCODE_MISMATCH_SOURCE
  {
    var readsize := ReadsizeBytes(inv.readsizeMiB);
    match ParseTypeOption(inv.typeOption, inv.action)
    case Failure(e) => Raise(e)
    case Success(option) =>
      match Dispatch(inv.action)
      case Failure(e) => Raise(e)
      case Success(kind) =>
        var source := DocumentedSource(option.source);
        var outcome := RunDocumented(kind, store, inv.path, readsize, source);
        var hex := ResultHex(outcome);
        var code := ExitCode(inv.action, hex, source);
        Exit(code, if hex.Some? then hex.value + "\n" else "", outcome.events)
  }

  /**
   Under the help text's reading, a mismatching source leaves the metadata
   alone: where the code inserts and exits 101, the documented command
   exits 101 without writing.
   */
  lemma DocumentedNoInsertOnMismatch(source: string, action: string, mib: int, path: string, rec: Actions.Record)
    requires action == "inget" || action == "check"
    requires ':' !in source && Lower(source) != CksumHex(rec) && Lower(source) != "print"
    ensures var t := CephsumAsDocumented(Invocation(SourceOption(source), action, mib, path), Actions.Store(map[], map[path := rec]));
            && t.Exit? && t.code == ERRCODE_MISMATCH_SOURCE && Actions.Writes(t.events) == []
  {
    SourceOptionParses(source, action);
  }

  /** Without a source both readings run the same command. */
  lemma DocumentedAgreesWithoutSource(inv: Invocation, store: Actions.Store)
    requires InvocationDefined(inv, store)
    requires ParseTypeOption(inv.typeOption, inv.action).Success?
    requires ParseTypeOption(inv.typeOption, inv.action).value.source.None?
    ensures CephsumAsDocumented(inv, store) == Cephsum(inv, store)
  {
  }
}

=== FILE: rmlocks.dfy ===
/**
 The lock-cleanup tool: for each listed object it decides whether the
 striper lock attribute is missing, inactive or held, counts each class,
 and removes held locks unless it is a dry run. The store's answers for
 each listed object are given as an observation.
 */
module RmLocks {
  import opened Wrappers
  import opened Text

  /** The lower-case digits of `n` without padding. */
  function HexDigits(n: nat): (s: string)
    ensures 1 <= |s| && (n < 16 <==> |s| == 1)
    ensures IsLowerHex(s)
    ensures HexValue(s) == n
    ensures n > 0 ==> s[0] != '0'
  {
    HexCharDigit(n % 16);
    if n < 16 then [HexChar(n)]
    else
      var high := HexDigits(n / 16);
      var s := high + [HexChar(n % 16)];
      assert s[..|s| - 1] == high && s[0] == high[0];
      s
  }

  /** Python's `hex(n)` for a non-negative `n`. */
  function PyHex(n: nat): string {
    "0x" + HexDigits(n)
  }

  /** `''.join(str(hex(i)) for i in res)`: the lock bytes rendered one `hex` at a time. */
  function LockHex(bs: seq<byte>): string {
    if |bs| == 0 then "" else PyHex(bs[0]) + LockHex(bs[1..])
  }

  /** The rendering of an unheld lock that the tool compares against, split before each `0x`. */
  const EMPTY_LOCK: string :=
    "0x1" + "0x1" + "0xc" + "0x0" + "0x0" + "0x0" +
    "0x0" + "0x0" + "0x0" + "0x0" + "0x2" + "0x3" +
    "0x0" + "0x0" + "0x0" + "0x54" + "0x61" + "0x67"

  /** The attribute bytes whose rendering is `EMPTY_LOCK`. */
  const EMPTY_LOCK_BYTES: seq<byte> := [0x1, 0x1, 0xc, 0x0, 0x0, 0x0, 0x0, 0x0, 0x0, 0x0, 0x2, 0x3, 0x0, 0x0, 0x0, 0x54, 0x61, 0x67]

  /** Empty, or beginning with the `0x` of a next byte. */
  predicate TokenStart(r: string) {
    r == [] || (|r| >= 2 && r[0] == '0' && r[1] == 'x')
  }

  lemma LockHexStart(bs: seq<byte>)
    ensures TokenStart(LockHex(bs))
  {
  }

  lemma HexDigitsInjective(x: byte, y: byte)
    requires HexDigits(x) == HexDigits(y)
    ensures x == y
  {
    var dx, dy := HexDigits(x), HexDigits(y);
    HexCharDigit(x % 16);
    HexCharDigit(y % 16);
    if x < 16 {
      assert dx[0] == HexChar(x) && dy[0] == HexChar(y);
    } else {
      assert y >= 16;
      HexCharDigit(x / 16);
      HexCharDigit(y / 16);
      assert HexDigits(x / 16) == [HexChar(x / 16)] && HexDigits(y / 16) == [HexChar(y / 16)];
      assert dx == [HexChar(x / 16)] + [HexChar(x % 16)];
      assert dy == [HexChar(y / 16)] + [HexChar(y % 16)];
      assert dx[0] == dy[0] && dx[1] == dy[1];
      assert x / 16 == y / 16 && x % 16 == y % 16;
      assert x == x / 16 * 16 + x % 16 && y == y / 16 * 16 + y % 16;
    }
  }

  /**
   The width of the first `hex` can be read off the rendering: one digit
   exactly when the text ends after it or the `x` of the next token follows.
   */
  lemma DigitsWidth(x: byte, r: string, s: string)
    requires TokenStart(r) && s == PyHex(x) + r
    ensures |HexDigits(x)| == 1 <==> (|s| == 3 || (|s| > 4 && s[4] == 'x'))
  {
    var d := HexDigits(x);
    if |d| == 1 {
      if r != [] {
        assert s[4] == r[1];
      }
    } else {
      assert |d| == 2;
      if |s| > 4 {
        assert s[4] == r[0];
      }
    }
  }

  /**
   The first `hex` of a rendering is determined: the `x` of the next token
   shows where the digits of this one end.
   */
  lemma PyHexCancel(x: byte, y: byte, r1: string, r2: string)
    requires TokenStart(r1) && TokenStart(r2)
    requires PyHex(x) + r1 == PyHex(y) + r2
    ensures x == y && r1 == r2
  {
    var s := PyHex(x) + r1;
    var dx, dy := HexDigits(x), HexDigits(y);
    DigitsWidth(x, r1, s);
    DigitsWidth(y, r2, s);
    assert |dx| == |dy|;
    assert s[2..2 + |dx|] == dx;
    assert s[2..2 + |dy|] == dy;
    HexDigitsInjective(x, y);
    assert r1 == s[2 + |dx|..] == r2;
  }

  lemma LockHexEmpty(bs: seq<byte>)
    ensures LockHex(bs) == [] <==> bs == []
  {
  }

  /** Different lock bytes render differently. */
  lemma {:induction false} LockHexInjective(a: seq<byte>, b: seq<byte>)
    requires LockHex(a) == LockHex(b)
    ensures a == b
    decreases |a| + |b|
  {
    if |a| == 0 || |b| == 0 {
      LockHexEmpty(a);
      LockHexEmpty(b);
    } else {
      LockHexStart(a[1..]);
      LockHexStart(b[1..]);
      PyHexCancel(a[0], b[0], LockHex(a[1..]), LockHex(b[1..]));
      LockHexInjective(a[1..], b[1..]);
      assert a == [a[0]] + a[1..] && b == [b[0]] + b[1..];
    }
  }

  lemma {:induction false} LockHexAppend(a: seq<byte>, b: seq<byte>)
    ensures LockHex(a + b) == LockHex(a) + LockHex(b)
    decreases |a|
  {
    if |a| == 0 {
      assert a + b == b;
    } else {
      assert (a + b)[0] == a[0] && (a + b)[1..] == a[1..] + b;
      LockHexAppend(a[1..], b);
    }
  }

  lemma EmptyLockPrefix3()
    ensures LockHex(EMPTY_LOCK_BYTES[..3]) == "0x1" + "0x1" + "0xc"
  {
    var e := EMPTY_LOCK_BYTES;
    assert e[..1] == e[..0] + [e[0]] && e[0] == 0x1;
    assert LockHex([e[0]]) == "0x1";
    LockHexAppend(e[..0], [e[0]]);
    assert e[..2] == e[..1] + [e[1]] && e[1] == 0x1;
    assert LockHex([e[1]]) == "0x1";
    LockHexAppend(e[..1], [e[1]]);
    assert e[..3] == e[..2] + [e[2]] && e[2] == 0xc;
    assert LockHex([e[2]]) == "0xc";
    LockHexAppend(e[..2], [e[2]]);
  }

  lemma EmptyLockPrefix6()
    ensures LockHex(EMPTY_LOCK_BYTES[..6]) == "0x1" + "0x1" + "0xc" + "0x0" + "0x0" + "0x0"
  {
    var e := EMPTY_LOCK_BYTES;
    EmptyLockPrefix3();
    assert e[..4] == e[..3] + [e[3]] && e[3] == 0x0;
    assert LockHex([e[3]]) == "0x0";
    LockHexAppend(e[..3], [e[3]]);
    assert e[..5] == e[..4] + [e[4]] && e[4] == 0x0;
    assert LockHex([e[4]]) == "0x0";
    LockHexAppend(e[..4], [e[4]]);
    assert e[..6] == e[..5] + [e[5]] && e[5] == 0x0;
    assert LockHex([e[5]]) == "0x0";
    LockHexAppend(e[..5], [e[5]]);
  }

  lemma EmptyLockPrefix9()
    ensures LockHex(EMPTY_LOCK_BYTES[..9]) == "0x1" + "0x1" + "0xc" + "0x0" + "0x0" + "0x0" + "0x0" + "0x0" + "0x0"
  {
    var e := EMPTY_LOCK_BYTES;
    EmptyLockPrefix6();
    assert e[..7] == e[..6] + [e[6]] && e[6] == 0x0;
    assert LockHex([e[6]]) == "0x0";
    LockHexAppend(e[..6], [e[6]]);
    assert e[..8] == e[..7] + [e[7]] && e[7] == 0x0;
    assert LockHex([e[7]]) == "0x0";
    LockHexAppend(e[..7], [e[7]]);
    assert e[..9] == e[..8] + [e[8]] && e[8] == 0x0;
    assert LockHex([e[8]]) == "0x0";
    LockHexAppend(e[..8], [e[8]]);
  }

  lemma EmptyLockPrefix12()
    ensures LockHex(EMPTY_LOCK_BYTES[..12]) == "0x1" + "0x1" + "0xc" + "0x0" + "0x0" + "0x0" + "0x0" + "0x0" + "0x0" + "0x0" + "0x2" + "0x3"
  {
    var e := EMPTY_LOCK_BYTES;
    EmptyLockPrefix9();
    assert e[..10] == e[..9] + [e[9]] && e[9] == 0x0;
    assert LockHex([e[9]]) == "0x0";
    LockHexAppend(e[..9], [e[9]]);
    assert e[..11] == e[..10] + [e[10]] && e[10] == 0x2;
    assert LockHex([e[10]]) == "0x2";
    LockHexAppend(e[..10], [e[10]]);
    assert e[..12] == e[..11] + [e[11]] && e[11] == 0x3;
    assert LockHex([e[11]]) == "0x3";
    LockHexAppend(e[..11], [e[11]]);
  }

  lemma EmptyLockPrefix15()
    ensures LockHex(EMPTY_LOCK_BYTES[..15]) == "0x1" + "0x1" + "0xc" + "0x0" + "0x0" + "0x0" + "0x0" + "0x0" + "0x0" + "0x0" + "0x2" + "0x3" + "0x0" + "0x0" + "0x0"
  {
    var e := EMPTY_LOCK_BYTES;
    EmptyLockPrefix12();
    assert e[..13] == e[..12] + [e[12]] && e[12] == 0x0;
    assert LockHex([e[12]]) == "0x0";
    LockHexAppend(e[..12], [e[12]]);
    assert e[..14] == e[..13] + [e[13]] && e[13] == 0x0;
    assert LockHex([e[13]]) == "0x0";
    LockHexAppend(e[..13], [e[13]]);
    assert e[..15] == e[..14] + [e[14]] && e[14] == 0x0;
    assert LockHex([e[14]]) == "0x0";
    LockHexAppend(e[..14], [e[14]]);
  }

  lemma EmptyLockPrefix18()
    ensures LockHex(EMPTY_LOCK_BYTES[..18]) == "0x1" + "0x1" + "0xc" + "0x0" + "0x0" + "0x0" + "0x0" + "0x0" + "0x0" + "0x0" + "0x2" + "0x3" + "0x0" + "0x0" + "0x0" + "0x54" + "0x61" + "0x67"
  {
    var e := EMPTY_LOCK_BYTES;
    EmptyLockPrefix15();
    assert e[..16] == e[..15] + [e[15]] && e[15] == 0x54;
    assert LockHex([e[15]]) == "0x54";
    LockHexAppend(e[..15], [e[15]]);
    assert e[..17] == e[..16] + [e[16]] && e[16] == 0x61;
    assert LockHex([e[16]]) == "0x61";
    LockHexAppend(e[..16], [e[16]]);
    assert e[..18] == e[..17] + [e[17]] && e[17] == 0x67;
    assert LockHex([e[17]]) == "0x67";
    LockHexAppend(e[..17], [e[17]]);
  }

  lemma EmptyLockRendering()
    ensures LockHex(EMPTY_LOCK_BYTES) == EMPTY_LOCK
  {
    EmptyLockPrefix18();
    assert EMPTY_LOCK_BYTES[..18] == EMPTY_LOCK_BYTES;
  }

  /** A lock counts as inactive exactly when its bytes are `EMPTY_LOCK_BYTES`. */
  lemma InactiveIffEmptyBytes(bs: seq<byte>)
    ensures LockHex(bs) == EMPTY_LOCK <==> bs == EMPTY_LOCK_BYTES
  {
    EmptyLockRendering();
    if LockHex(bs) == EMPTY_LOCK {
      LockHexInjective(bs, EMPTY_LOCK_BYTES);
    }
  }

  /**
   The store's answers for one line of the list: whether the object exists
   (`stat`), the lock attribute's bytes if it is set, and whether removing
   the attribute would succeed.
   */
  datatype Observation = Observation(line: string, found: bool, lock: Option<seq<byte>>, removalSucceeds: bool)

  datatype Class = NotFound | NoXattr | NoActiveLock | HasLock

  /** The branch of the loop body a line takes, decided in the order the tool checks the conditions. */
  function Classify(o: Observation): Class {
    if !o.found then NotFound
    else if o.lock.None? then NoXattr
    else if LockHex(o.lock.value) == EMPTY_LOCK then NoActiveLock
    else HasLock
  }

  /**
   Each class in terms of the observation: a missing object, a missing
   attribute, the unheld lock's exact bytes, or any other lock bytes.
   */
  lemma ClassifySpec(o: Observation)
    ensures Classify(o) == NotFound <==> !o.found
    ensures Classify(o) == NoXattr <==> o.found && o.lock.None?
    ensures Classify(o) == NoActiveLock <==> o.found && o.lock == Some(EMPTY_LOCK_BYTES)
    ensures Classify(o) == HasLock <==> o.found && o.lock.Some? && o.lock.value != EMPTY_LOCK_BYTES
  {
    if o.lock.Some? {
      InactiveIffEmptyBytes(o.lock.value);
    }
  }

  /** What the loop body makes of one line: its class, its stripped path, and the removal's outcome. */
  datatype Verdict = Verdict(cls: Class, path: string, removalSucceeds: bool)

  function Judge(o: Observation): Verdict {
    Verdict(Classify(o), Strip(o.line), o.removalSucceeds)
  }

  /** The verdicts of the lines, in list order. */
  function Verdicts(obs: seq<Observation>): (vs: seq<Verdict>)
    ensures |vs| == |obs|
  {
    if |obs| == 0 then [] else Verdicts(obs[..|obs| - 1]) + [Judge(obs[|obs| - 1])]
  }

  /** The six counters the tool reports. */
  datatype Counters = Counters(
    notFound: nat, noXattr: nat, noActiveLock: nat, hasLock: nat,
    rmxattrOk: nat, rmxattrError: nat)

  /** How many lines fall in class `c`. */
  function CountClass(vs: seq<Verdict>, c: Class): nat {
    if |vs| == 0 then 0
    else CountClass(vs[..|vs| - 1], c) + (if vs[|vs| - 1].cls == c then 1 else 0)
  }

  /** How many held locks would be removed successfully. */
  function CountRemoved(vs: seq<Verdict>): nat {
    if |vs| == 0 then 0
    else CountRemoved(vs[..|vs| - 1])
         + (if vs[|vs| - 1].cls == HasLock && vs[|vs| - 1].removalSucceeds then 1 else 0)
  }

  /** The stripped paths of the held locks, in list order. */
  function LockedPaths(vs: seq<Verdict>): seq<string> {
    if |vs| == 0 then []
    else LockedPaths(vs[..|vs| - 1]) + (if vs[|vs| - 1].cls == HasLock then [vs[|vs| - 1].path] else [])
  }

  /** Every line lands in exactly one class. */
  lemma {:induction false} ClassesPartition(vs: seq<Verdict>)
    ensures CountClass(vs, NotFound) + CountClass(vs, NoXattr)
          + CountClass(vs, NoActiveLock) + CountClass(vs, HasLock) == |vs|
    decreases |vs|
  {
    if |vs| > 0 {
      ClassesPartition(vs[..|vs| - 1]);
    }
  }

  lemma {:induction false} RemovedAtMostLocked(vs: seq<Verdict>)
    ensures CountRemoved(vs) <= CountClass(vs, HasLock)
    ensures |LockedPaths(vs)| == CountClass(vs, HasLock)
    decreases |vs|
  {
    if |vs| > 0 {
      RemovedAtMostLocked(vs[..|vs| - 1]);
    }
  }

  /**
   One iteration of the loop of `main`: the line's class counter goes up,
   and a held lock's removal is attempted, and counted as a success or an
   error, unless `dryRun`.
   */
  function Tally(c: Counters, attempted: seq<string>, v: Verdict, dryRun: bool): (r: (Counters, seq<string>))
    ensures && r.0.notFound == c.notFound + (if v.cls == NotFound then 1 else 0)
            && r.0.noXattr == c.noXattr + (if v.cls == NoXattr then 1 else 0)
            && r.0.noActiveLock == c.noActiveLock + (if v.cls == NoActiveLock then 1 else 0)
            && r.0.hasLock == c.hasLock + (if v.cls == HasLock then 1 else 0)
    ensures var tried := v.cls == HasLock && !dryRun;
            && r.1 == attempted + (if tried then [v.path] else [])
            && r.0.rmxattrOk == c.rmxattrOk + (if tried && v.removalSucceeds then 1 else 0)
            && r.0.rmxattrError == c.rmxattrError + (if tried && !v.removalSucceeds then 1 else 0)
  {
    match v.cls
    case NotFound => (c.(notFound := c.notFound + 1), attempted)
    case NoXattr => (c.(noXattr := c.noXattr + 1), attempted)
    case NoActiveLock => (c.(noActiveLock := c.noActiveLock + 1), attempted)
    case HasLock =>
      var held := c.(hasLock := c.hasLock + 1);
      if dryRun then (held, attempted)
      else if v.removalSucceeds then (held.(rmxattrOk := held.rmxattrOk + 1), attempted + [v.path])
      else (held.(rmxattrError := held.rmxattrError + 1), attempted + [v.path])
  }

  /** The loop as a fold: the counters and attempted paths after the verdicts `vs`, in order. */
  function Run(vs: seq<Verdict>, dryRun: bool): (Counters, seq<string>) {
    if |vs| == 0 then (Counters(0, 0, 0, 0, 0, 0), [])
    else
      var before := Run(vs[..|vs| - 1], dryRun);
      Tally(before.0, before.1, vs[|vs| - 1], dryRun)
  }

  /** What the fold computes: per-class counts, and removals only of held locks outside a dry run. */
  lemma {:induction false} RunCounts(vs: seq<Verdict>, dryRun: bool)
    ensures var (c, attempted) := Run(vs, dryRun);
            && c.notFound == CountClass(vs, NotFound) && c.noXattr == CountClass(vs, NoXattr)
            && c.noActiveLock == CountClass(vs, NoActiveLock) && c.hasLock == CountClass(vs, HasLock)
            && (dryRun ==> c.rmxattrOk == 0 && c.rmxattrError == 0 && attempted == [])
            && (!dryRun ==> attempted == LockedPaths(vs))
            && (!dryRun ==> c.rmxattrOk == CountRemoved(vs) && c.rmxattrOk + c.rmxattrError == c.hasLock)
    decreases |vs|
  {
    if |vs| > 0 {
      RunCounts(vs[..|vs| - 1], dryRun);
    }
  }

  lemma VerdictsStep(obs: seq<Observation>, i: nat)
    requires i < |obs|
    ensures Verdicts(obs[..i + 1]) == Verdicts(obs[..i]) + [Judge(obs[i])]
  {
    assert obs[..i + 1][..i] == obs[..i];
  }

  /** The fold over all the lines' verdicts meets the loop's specification. */
  lemma RemoveLocksSpec(obs: seq<Observation>, dryRun: bool)
    ensures Run(Verdicts(obs), dryRun).0.notFound == CountClass(Verdicts(obs), NotFound)
    ensures Run(Verdicts(obs), dryRun).0.noXattr == CountClass(Verdicts(obs), NoXattr)
    ensures Run(Verdicts(obs), dryRun).0.noActiveLock == CountClass(Verdicts(obs), NoActiveLock)
    ensures Run(Verdicts(obs), dryRun).0.hasLock == CountClass(Verdicts(obs), HasLock)
    ensures var c := Run(Verdicts(obs), dryRun).0;
            c.notFound + c.noXattr + c.noActiveLock + c.hasLock == |obs|
    ensures dryRun ==> var (c, attempted) := Run(Verdicts(obs), dryRun);
                       c.rmxattrOk == 0 && c.rmxattrError == 0 && attempted == []
    ensures !dryRun ==> Run(Verdicts(obs), dryRun).1 == LockedPaths(Verdicts(obs))
    ensures !dryRun ==> var c := Run(Verdicts(obs), dryRun).0;
                        c.rmxattrOk == CountRemoved(Verdicts(obs)) && c.rmxattrOk + c.rmxattrError == c.hasLock
  {
    var vs := Verdicts(obs);
    RunCounts(vs, dryRun);
    ClassesPartition(vs);
  }

  /**
   The loop of `main` over the listed lines. Returns the counters and the
   paths whose lock attribute removal was attempted, in order.
   */
  method RemoveLocks(obs: seq<Observation>, dryRun: bool) returns (counters: Counters, attempted: seq<string>)
    ensures counters.notFound == CountClass(Verdicts(obs), NotFound)
    ensures counters.noXattr == CountClass(Verdicts(obs), NoXattr)
    ensures counters.noActiveLock == CountClass(Verdicts(obs), NoActiveLock)
    ensures counters.hasLock == CountClass(Verdicts(obs), HasLock)
    ensures counters.notFound + counters.noXattr + counters.noActiveLock + counters.hasLock == |obs|
    ensures dryRun ==> counters.rmxattrOk == 0 && counters.rmxattrError == 0 && attempted == []
    ensures !dryRun ==> attempted == LockedPaths(Verdicts(obs))
    ensures !dryRun ==> counters.rmxattrOk == CountRemoved(Verdicts(obs))
    ensures !dryRun ==> counters.rmxattrOk + counters.rmxattrError == counters.hasLock
  {
    counters := Counters(0, 0, 0, 0, 0, 0);
    attempted := [];
    var i := 0;
    while i < |obs|
      invariant 0 <= i <= |obs|
      invariant (counters, attempted) == Run(Verdicts(obs[..i]), dryRun)
    {
      var v := Judge(obs[i]);
      VerdictsStep(obs, i);
      var next := Tally(counters, attempted, v, dryRun);
      counters, attempted := next.0, next.1;
      i := i + 1;
    }
    assert obs[..|obs|] == obs;
    RemoveLocksSpec(obs, dryRun);
  }
}

=== FILE: text.dfy ===
/**
 Text and byte helpers shared by the model: the Python `str` operations the
 tool relies on (`isspace`, `strip`, `lower`, `split`) and hexadecimal digits.
 */
module Text {

  /** One element of a Python `bytes` object, as iteration yields it. */
  type byte = x: int | 0 <= x < 256

  /** Python's `str.isspace` for a single character. */
  predicate IsSpace(c: char) {
    || c == ' ' || ('\t' <= c <= '\r') || ('\U{1c}' <= c <= '\U{1f}')
    || c == '\U{85}' || c == '\U{a0}' || c == '\U{1680}'
    || ('\U{2000}' <= c <= '\U{200a}') || c == '\U{2028}' || c == '\U{2029}'
    || c == '\U{202f}' || c == '\U{205f}' || c == '\U{3000}'
  }

  /**
   Which characters a trim skips: `str.strip()` skips every `isspace`
   character; `int()` leaves the ASCII separators U+001C..U+001F in place
   (it maps only non-ASCII whitespace to a space before skipping spaces).
   */
  datatype Blanks = StrBlanks | IntBlanks

  predicate IsBlank(k: Blanks, c: char) {
    IsSpace(c) && (k == IntBlanks ==> !('\U{1c}' <= c <= '\U{1f}'))
  }

  predicate AllBlank(k: Blanks, s: string) {
    forall i :: 0 <= i < |s| ==> IsBlank(k, s[i])
  }

  /** Drops leading blanks of kind `k`. */
  function TrimStart(k: Blanks, s: string): string {
    if |s| > 0 && IsBlank(k, s[0]) then TrimStart(k, s[1..]) else s
  }

  /** Drops trailing blanks of kind `k`. */
  function TrimEnd(k: Blanks, s: string): string {
    if |s| > 0 && IsBlank(k, s[|s| - 1]) then TrimEnd(k, s[..|s| - 1]) else s
  }

  /** Python's `str.strip()` with no argument. */
  function Strip(s: string): string {
    TrimEnd(StrBlanks, TrimStart(StrBlanks, s))
  }

  /** The surrounding whitespace `int()` ignores, removed. */
  function StripNumeral(s: string): string {
    TrimEnd(IntBlanks, TrimStart(IntBlanks, s))
  }

  /** `TrimStart` drops a blank-only prefix and stops at the first other character. */
  lemma {:induction false} TrimStartSpec(k: Blanks, s: string)
    ensures var r := TrimStart(k, s);
            && |r| <= |s| && r == s[|s| - |r|..]
            && AllBlank(k, s[..|s| - |r|])
            && (|r| > 0 ==> !IsBlank(k, r[0]))
    decreases |s|
  {
    if |s| > 0 && IsBlank(k, s[0]) {
      TrimStartSpec(k, s[1..]);
      var r := TrimStart(k, s);
      assert s[1..][|s| - 1 - |r|..] == s[|s| - |r|..];
      assert s[..|s| - |r|] == [s[0]] + s[1..][..|s| - 1 - |r|];
    }
  }

  /** `TrimEnd` drops a blank-only suffix and stops at the last other character. */
  lemma {:induction false} TrimEndSpec(k: Blanks, s: string)
    ensures var r := TrimEnd(k, s);
            && |r| <= |s| && r == s[..|r|]
            && AllBlank(k, s[|r|..])
            && (|r| > 0 ==> !IsBlank(k, r[|r| - 1]))
    decreases |s|
  {
    if |s| > 0 && IsBlank(k, s[|s| - 1]) {
      TrimEndSpec(k, s[..|s| - 1]);
      var r := TrimEnd(k, s);
      assert s[..|s| - 1][..|r|] == s[..|r|];
      assert s[|r|..] == s[..|s| - 1][|r|..] + [s[|s| - 1]];
    }
  }

  /** `r` is `s` with some whitespace removed at both ends. */
  ghost predicate IsTrimmedInfix(r: string, s: string) {
    exists i {:trigger s[..i]} :: 0 <= i <= |s| - |r| && s[i..i + |r|] == r
      && AllBlank(StrBlanks, s[..i]) && AllBlank(StrBlanks, s[i + |r|..])
  }

  /**
   `Strip` removes exactly the surrounding whitespace: what is left is an
   infix of the input, whitespace only lies outside it, and it neither
   starts nor ends with whitespace.
   */
  lemma StripSpec(s: string)
    ensures IsTrimmedInfix(Strip(s), s)
    ensures var r := Strip(s); |r| > 0 ==> !IsSpace(r[0]) && !IsSpace(r[|r| - 1])
  {
    var t := TrimStart(StrBlanks, s);
    var r := TrimEnd(StrBlanks, t);
    TrimStartSpec(StrBlanks, s);
    TrimEndSpec(StrBlanks, t);
    var i := |s| - |t|;
    assert s[i..i + |r|] == r;
    assert s[i + |r|..] == t[|r|..];
    assert AllBlank(StrBlanks, s[..i]);
  }

  /** An ASCII capital letter mapped to lower case, anything else unchanged. */
  function LowerChar(c: char): char {
    if 'A' <= c <= 'Z' then (c as int + 32) as char else c
  }

  /** Python's `str.lower()`, restricted to ASCII letters. */
  function Lower(s: string): (r: string)
    ensures |r| == |s|
    ensures forall i :: 0 <= i < |s| ==> r[i] == LowerChar(s[i])
  {
    seq(|s|, i requires 0 <= i < |s| => LowerChar(s[i]))
  }

  /** Index of the first `c` in `s`, or `|s|` when there is none. */
  function IndexOf(s: string, c: char): (i: nat)
    ensures i <= |s|
    ensures i < |s| ==> s[i] == c
    ensures forall k :: 0 <= k < i ==> s[k] != c
  {
    if |s| == 0 || s[0] == c then 0 else 1 + IndexOf(s[1..], c)
  }

  /** The fields separated by `sep`, put back together. */
  function Join(parts: seq<string>, sep: char): string {
    if |parts| == 0 then ""
    else if |parts| == 1 then parts[0]
    else parts[0] + [sep] + Join(parts[1..], sep)
  }

  /** Python's `str.split(sep)` for a one-character separator. */
  function Split(s: string, sep: char): (parts: seq<string>)
    ensures |parts| >= 1
    ensures forall k :: 0 <= k < |parts| ==> sep !in parts[k]
    ensures Join(parts, sep) == s
    decreases |s|
  {
    var i := IndexOf(s, sep);
    if i == |s| then [s]
    else
      var rest := Split(s[i + 1..], sep);
      var parts := [s[..i]] + rest;
      assert parts[1..] == rest;
      assert s == s[..i] + [sep] + s[i + 1..];
      parts
  }

  /** Splitting undoes joining whenever no field contains the separator. */
  lemma {:induction false} SplitJoin(parts: seq<string>, sep: char)
    requires |parts| >= 1
    requires forall k :: 0 <= k < |parts| ==> sep !in parts[k]
    ensures Split(Join(parts, sep), sep) == parts
    decreases |parts|
  {
    if |parts| > 1 {
      var s := Join(parts, sep);
      var rest := Join(parts[1..], sep);
      assert s == parts[0] + [sep] + rest;
      assert IndexOf(s, sep) == |parts[0]| by {
        assert s[|parts[0]|] == sep;
        forall k | 0 <= k < |parts[0]| ensures s[k] != sep {
          assert s[k] == parts[0][k];
        }
        IndexOfFirst(s, sep, |parts[0]|);
      }
      assert s[|parts[0]| + 1..] == rest;
      assert s[..|parts[0]|] == parts[0];
      SplitJoin(parts[1..], sep);
    } else {
      assert sep !in parts[0];
      IndexOfAbsent(parts[0], sep);
    }
  }

  lemma IndexOfFirst(s: string, c: char, i: nat)
    requires i < |s| && s[i] == c
    requires forall k :: 0 <= k < i ==> s[k] != c
    ensures IndexOf(s, c) == i
  {
  }

  lemma IndexOfAbsent(s: string, c: char)
    requires c !in s
    ensures IndexOf(s, c) == |s|
  {
  }

  /** Lower-case hexadecimal digit for a value below 16. */
  function HexChar(n: int): (c: char)
    requires 0 <= n < 16
  {
    if n < 10 then ('0' as int + n) as char else ('a' as int + n - 10) as char
  }

  predicate IsHexDigit(c: char) {
    '0' <= c <= '9' || 'a' <= c <= 'f' || 'A' <= c <= 'F'
  }

  predicate IsLowerHexDigit(c: char) {
    '0' <= c <= '9' || 'a' <= c <= 'f'
  }

  predicate IsLowerHex(s: string) {
    forall i :: 0 <= i < |s| ==> IsLowerHexDigit(s[i])
  }

  /** The value of one hexadecimal digit of either case. */
  function DigitValue(c: char): (n: int)
    requires IsHexDigit(c)
    ensures 0 <= n < 16
  {
    if '0' <= c <= '9' then c as int - '0' as int
    else if 'a' <= c <= 'f' then c as int - 'a' as int + 10
    else c as int - 'A' as int + 10
  }

  /** `HexChar` and `DigitValue` are inverse on lower-case digits. */
  lemma HexCharDigit(n: int)
    requires 0 <= n < 16
    ensures IsLowerHexDigit(HexChar(n)) && DigitValue(HexChar(n)) == n
  {
  }

  lemma DigitHexChar(c: char)
    requires IsLowerHexDigit(c)
    ensures HexChar(DigitValue(c)) == c
  {
  }

  /** A string of hexadecimal digits read as a base-16 numeral, most significant first. */
  function HexValue(s: string): nat
    requires forall i :: 0 <= i < |s| ==> IsHexDigit(s[i])
  {
    if |s| == 0 then 0 else HexValue(s[..|s| - 1]) * 16 + DigitValue(s[|s| - 1])
  }

  /** The value of a concatenation: the left part is shifted by the right part's width. */
  lemma {:induction false} HexValueAppend(a: string, b: string)
    requires forall i :: 0 <= i < |a| ==> IsHexDigit(a[i])
    requires forall i :: 0 <= i < |b| ==> IsHexDigit(b[i])
    ensures forall i :: 0 <= i < |a + b| ==> IsHexDigit((a + b)[i])
    ensures HexValue(a + b) == HexValue(a) * Pow16(|b|) + HexValue(b)
    decreases |b|
  {
    if |b| > 0 {
      var b' := b[..|b| - 1];
      var d := DigitValue(b[|b| - 1]);
      assert (a + b)[..|a + b| - 1] == a + b';
      HexValueAppend(a, b');
      var x, p, v := HexValue(a), Pow16(|b'|), HexValue(b');
      assert HexValue(a + b) == HexValue(a + b') * 16 + d;
      assert HexValue(b) == v * 16 + d;
      assert Pow16(|b|) == p * 16;
      ShiftStep(x, p, v, d);
    } else {
      assert a + b == a;
    }
  }

  lemma ShiftStep(x: int, p: int, v: int, d: int)
    ensures (x * p + v) * 16 + d == x * (p * 16) + (v * 16 + d)
  {
    MulDistrib(x * p, v, 16);
  }

  lemma MulDistrib(x: int, y: int, k: int)
    ensures (x + y) * k == x * k + y * k
  {
  }

  function Pow16(n: nat): nat {
    if n == 0 then 1 else 16 * Pow16(n - 1)
  }

  /** A numeral of `n` digits is below `16^n`. */
  lemma {:induction false} HexValueBound(s: string)
    requires forall i :: 0 <= i < |s| ==> IsHexDigit(s[i])
    ensures HexValue(s) < Pow16(|s|)
    decreases |s|
  {
    if |s| > 0 {
      HexValueBound(s[..|s| - 1]);
    }
  }

  /** Two lower-case numerals of equal width with equal value are the same string. */
  lemma {:induction false} HexValueInjective(s: string, t: string)
    requires |s| == |t| && IsLowerHex(s) && IsLowerHex(t)
    requires HexValue(s) == HexValue(t)
    ensures s == t
    decreases |s|
  {
    if |s| > 0 {
      var n := |s| - 1;
      var ds, dt := DigitValue(s[n]), DigitValue(t[n]);
      var hs, ht := HexValue(s[..n]), HexValue(t[..n]);
      assert hs * 16 + ds == ht * 16 + dt;
      DivMod16(hs, ds);
      DivMod16(ht, dt);
      HexValueInjective(s[..n], t[..n]);
      DigitHexChar(s[n]);
      DigitHexChar(t[n]);
      assert s == s[..n] + [s[n]] && t == t[..n] + [t[n]];
    }
  }

  lemma DivMod16(h: int, d: int)
    requires 0 <= d < 16
    ensures (h * 16 + d) / 16 == h && (h * 16 + d) % 16 == d
  {
  }
}

=== FILE: wrappers.dfy ===
/** Failure-carrying datatypes used for the model's error paths. */
module Wrappers {

  /** A value that may be missing; Python's `None` is `None`. */
  datatype Option<+T> = None | Some(value: T)

  /** A value or the exception the source would raise instead. */
  datatype Result<+T, +E> = Success(value: T) | Failure(error: E)
}
